=== FILE: README.md ===
# DEER job server and dereferencing enrichment, modelled in Dafny

This project models two parts of DEER, the RDF dataset enrichment framework.

**The job server** (`Server.java`) accepts a configuration upload on
`POST /submit`. It stages the upload as `./.server-storage/deer_cfg_<id>.ttl`,
cuts the job id out of that file name, creates the job's working directory and
registers the job as running. `GET /status/:id`, `/logs/:id`, `/results/:id`
and `/result/:id/:file` then report on it. Every path-supplied id is
sanitised to its digits first. The model treats each handler as one atomic
step over a state made of:

- the request registry: job id ↦ whether its future has completed;
- a file system: a set of directories and a map from files to their bytes,
  both keyed by `java.io.File`-normalised path.

The asynchronous job run is modelled only through its effects: a log append,
a result file written, and the future completing. These are extra steps of
the state machine. The `handleLogs` tail-follow loop is a method over a trace
of observations: whether the job was seen done, and the log content at each
check and at each end-of-file.

**The dereferencing enrichment operator** (`DereferencingEnrichmentOperator.java`)
groups its configured operations by `(lookUpProperty, lookUpPrefix)`. For each
group it then does three things:

- selects the candidate statements `(s, p, o)` whose object is a URI with the
  group's prefix (and, when a lookup property is given, whose predicate is that
  property);
- dereferences each distinct candidate object once;
- adds `(s, import, y)` for every `(o, deref, y)` in the fetched description.

An RDF model is a finite set of triples. The network is an oracle `Web` with
two parts: whether `new URL(uri)` accepts a URI, and what fetching it yields
(`None` when `queryResourceModel` throws). The groups run in the `HashMap`'s
iteration order. That order is chosen by enumerating the map's keys, and
`SafeApply` returns it.

Modules and files:

| file | module | contents |
|---|---|---|
| `wrappers.dfy` | `Wrappers` | `Option`, `Result` |
| `java_lang.dfy` | `JavaLang` | `indexOf`, `lastIndexOf`, `substring`, `startsWith`, `String.hashCode`, 32-bit wrap-around |
| `java_file.dfy` | `JavaFile` | `java.io.File` path normalisation and `getName` on a Unix file system |
| `server_ids.dfy` | `ServerIds` | storage constants, `sanitizeId`, job-id extraction |
| `tail_follow.dfy` | `TailFollow` | the `handleLogs` read loops |
| `server.dfy` | `Server` | state, replies, error envelopes, the five handlers |
| `lifecycle.dfy` | `Lifecycle` | job-run steps, runs of steps, the submit → run → fetch scenario |
| `deref_config.dfy` | `DerefConfig` | RDF terms, operations, `initializeOperations`, `OperationGroup` |
| `dereferencing.dfy` | `Dereferencing` | candidates, dereferencing, `runOperation`, `safeApply` |

Where the code and its documentation disagree, the model follows the code:

- Only `ErrorMessage` extends `ServerMessage`. So only error replies carry a
  JSON `success` member (always `false`). The status, results and submit
  messages carry no `success` member at all (`Server.SuccessField`).
- The operator's Javadoc marks `:lookUpPrefix`, `:dereferencingProperty` and
  `:importProperty` as required. The code instead defaults the prefix to
  `http://dbpedia.org/resource` and the import property to the dereferencing
  property. A missing dereferencing property stays `null`, and Jena then
  matches every predicate (`DerefConfig.PairOf`, `Dereferencing.DerefMatches`).

Two consequences of the code that the model makes explicit:

- Job-id extraction needs only one thing: the staging directory must not
  contain `deer_cfg_`. The part between prefix and suffix may contain anything,
  including further `.ttl` or `deer_cfg_` text
  (`ServerIds.ExtractIdRoundTrip`).
- An id with no digits sanitises to the empty string. It then names the
  storage root itself: `GET /results/abc` lists `./.server-storage`
  (`Server.HandleResults` with `Sanitize(rawId) == ""`).

## Model

| member | source | states |
|---|---|---|
| JavaLang.Wrap | deer-core/src/main/java/org/aksw/deer/enrichments/DereferencingEnrichmentOperator.java:281 | the result is a 32-bit int congruent to the input modulo 2^32, and equal to it when it already fits: Java `int` overflow |
| JavaLang.IndexOf | deer-server/src/main/java/org/aksw/deer/server/Server.java:99 | -1 exactly when the pattern occurs nowhere; otherwise an occurrence with none before it |
| JavaLang.LastIndexOf | deer-server/src/main/java/org/aksw/deer/server/Server.java:100 | -1 exactly when the pattern occurs nowhere; otherwise an occurrence with none after it |
| JavaLang.Substring | deer-server/src/main/java/org/aksw/deer/server/Server.java:99-100 | succeeds exactly when 0 <= begin <= end <= length, then yields those characters; otherwise it throws with the offending bounds |
| JavaLang.StringHash | deer-core/src/main/java/org/aksw/deer/enrichments/DereferencingEnrichmentOperator.java:281 | `String.hashCode` is a 32-bit int and 0 for the empty string |
| JavaLang.StringHashIsPoly | deer-core/src/main/java/org/aksw/deer/enrichments/DereferencingEnrichmentOperator.java:281 | the hash equals the documented sum `s[0]*31^(n-1) + ... + s[n-1]`, wrapped to 32 bits |
| JavaLang.PolyHorner | deer-core/src/main/java/org/aksw/deer/enrichments/DereferencingEnrichmentOperator.java:281 | the documented sum satisfies Horner's rule: the sum of a string is 31 times the sum of all but its last character, plus that character |
| JavaLang.WrapCongruent | deer-core/src/main/java/org/aksw/deer/enrichments/DereferencingEnrichmentOperator.java:281 | values congruent modulo 2^32 overflow to the same `int` |
| JavaLang.TimesCongruent | deer-core/src/main/java/org/aksw/deer/enrichments/DereferencingEnrichmentOperator.java:281 | one step of the hash, `31 * h + c`, keeps two values congruent modulo 2^32 |
| JavaFile.Collapse | deer-server/src/main/java/org/aksw/deer/server/Server.java:130 | the `File` constructor's collapsing of repeated separators: no double separator remains, and a path without one is unchanged |
| JavaFile.CollapseRepeat | deer-server/src/main/java/org/aksw/deer/server/Server.java:130 | a doubled separator collapses exactly like a single one; with the fixed-point clause this determines the result on every input |
| JavaFile.CollapseAppendSeparator | deer-server/src/main/java/org/aksw/deer/server/Server.java:130 | a separator appended after a separator is swallowed, and after any other character it is kept |
| JavaFile.Normalize | deer-server/src/main/java/org/aksw/deer/server/Server.java:130 | the result is in normal form (no double separator, no trailing separator), normal paths are unchanged, and non-empty stays non-empty |
| JavaFile.NormalizeRepeat | deer-server/src/main/java/org/aksw/deer/server/Server.java:130 | `File` treats a doubled separator exactly like a single one |
| JavaFile.NormalizeDropsTrailingSeparator | deer-server/src/main/java/org/aksw/deer/server/Server.java:130 | `File` drops a trailing separator from a non-empty path; with `NormalizeRepeat` and the fixed-point clause this determines the normalised path of every non-empty input |
| JavaFile.Name | deer-server/src/main/java/org/aksw/deer/server/Server.java:160-161 | `getName` is the longest separator-free suffix of the normalised path: a suffix of it, without a separator, preceded by a separator or by nothing; a plain non-empty name is its own name |
| JavaFile.NormalJoin | deer-server/src/main/java/org/aksw/deer/server/Server.java:161 | a normal directory plus `/` plus a plain name is already normal, so `File` leaves it unchanged |
| ServerIds.Sanitize | deer-server/src/main/java/org/aksw/deer/server/Server.java:201-203 | the sanitised id holds only digits and is no longer than the raw id |
| ServerIds.SanitizeConcat | deer-server/src/main/java/org/aksw/deer/server/Server.java:201-203 | sanitising a concatenation is the concatenation of the sanitised parts |
| ServerIds.SanitizeSingle | deer-server/src/main/java/org/aksw/deer/server/Server.java:201-203 | one digit survives and one non-digit is removed; with `SanitizeConcat` this pins the function down on every input |
| ServerIds.SanitizeKeepsDigits | deer-server/src/main/java/org/aksw/deer/server/Server.java:201-203 | an all-digit id is unchanged |
| ServerIds.SanitizeIdempotent | deer-server/src/main/java/org/aksw/deer/server/Server.java:201-203 | sanitising twice equals sanitising once |
| ServerIds.SanitizeIgnoresNonDigits | deer-server/src/main/java/org/aksw/deer/server/Server.java:201-203 | inserting non-digits anywhere does not change the key: distinct raw ids collide |
| ServerIds.SanitizeNoDigits | deer-server/src/main/java/org/aksw/deer/server/Server.java:201-203 | an id without digits sanitises to the empty string |
| ServerIds.NoStraddlingPrefix | deer-server/src/main/java/org/aksw/deer/server/Server.java:36 | `deer_cfg_` has no border, so no occurrence can start in the directory and run into the prefix |
| ServerIds.ExtractIdRoundTrip | deer-server/src/main/java/org/aksw/deer/server/Server.java:98-100 | a file staged as `dir + "deer_cfg_" + x + ".ttl"`, with `dir` free of the prefix, yields exactly `x` |
| ServerIds.ExtractIdFailsWithoutSuffix | deer-server/src/main/java/org/aksw/deer/server/Server.java:99-100 | with no `.ttl` in the staged path, `lastIndexOf` is -1 and `substring` throws |
| ServerIds.ExtractId | deer-server/src/main/java/org/aksw/deer/server/Server.java:98-100 | extraction fails when the path has no `.ttl`; a result is the text that ends where the last `.ttl` starts and begins right after the first `deer_cfg_`, or at index 8 when there is no `deer_cfg_`; with `ExtractIdSucceedsWhenIdFits`, it succeeds exactly when such a text exists |
| ServerIds.ExtractIdSucceedsWhenIdFits | deer-server/src/main/java/org/aksw/deer/server/Server.java:98-100 | whenever an id lies between the first `deer_cfg_` (or index 8) and the last `.ttl`, the substring bounds are in order and extraction returns exactly that id |
| TailFollow.Drain | deer-server/src/main/java/org/aksw/deer/server/Server.java:137-143 | reading in 1024-byte chunks until end-of-file emits exactly the bytes from the stream position to the end, and leaves the position at the end |
| TailFollow.Follow | deer-server/src/main/java/org/aksw/deer/server/Server.java:139-148 | the loop stops at the first round whose done-check was true, and never earlier; on an append-only log the emitted bytes are the log as of the last read, which extends the content seen at that done-check |
| TailFollow.GrowthStep | deer-server/src/main/java/org/aksw/deer/server/Server.java:140-143 | what was emitted before a round is a prefix of that round's read, so draining from the stream position completes it |
| Server.SuccessField | deer-server/src/main/java/org/aksw/deer/server/Server.java:235-261 | a `success` member is present exactly on error messages, and it is `false` |
| Server.ExceptionReply | deer-server/src/main/java/org/aksw/deer/server/Server.java:71-76 | an uncaught exception gives status 500, error code -1 and the exception as message |
| Server.UnknownRouteReply | deer-server/src/main/java/org/aksw/deer/server/Server.java:77-81 | an unknown route gives status 404 with error code -2 |
| Server.NotFoundReply | deer-server/src/main/java/org/aksw/deer/server/Server.java:152-155 | a handler's own not-found gives status 404 with error code 1 |
| Server.HandleSubmit | deer-server/src/main/java/org/aksw/deer/server/Server.java:89-112 | 200 happens exactly when staging, upload, id extraction and `mkdir` of a not-yet-existing working directory all succeed; it replies with the extracted id, registers it as running, adds exactly that directory and stores the upload as the staged file, nothing else; any failure is a 500 with code -1 that leaves the registry and the directories unchanged, keeps the staged file (empty when the upload failed), and changes nothing at all when staging failed |
| Server.HandleStatus | deer-server/src/main/java/org/aksw/deer/server/Server.java:114-126 | always 200; the code is -1, 0 or 1 exactly when the sanitised id is unknown, running or done |
| Server.HandleLogs | deer-server/src/main/java/org/aksw/deer/server/Server.java:128-156 | a missing log gives 404 with code 1; a log path that is a directory makes opening the stream throw, and the exception route (lines 71-76) answers 500 with code -1; bytes are streamed exactly when the log is a regular file; a log of an unknown or finished job is streamed once and completely; on an append-only log the stream extends the log's initial content and, when complete, equals the log as read after the first done-check that succeeded |
| Server.PrefixChain | deer-server/src/main/java/org/aksw/deer/server/Server.java:139-148 | on an append-only log the first observed content is a prefix of every later read |
| Server.Listing | deer-server/src/main/java/org/aksw/deer/server/Server.java:191-193 | `listFiles` mapped to `getName` holds exactly the non-empty, separator-free names of the directories and files directly inside the directory |
| Server.HandleResults | deer-server/src/main/java/org/aksw/deer/server/Server.java:187-199 | 200 exactly when the job's directory exists, listing exactly its entries; otherwise 404 "Request ID not found" |
| Server.HandleResult | deer-server/src/main/java/org/aksw/deer/server/Server.java:158-185 | 200 exactly when the file is a regular file; it then carries the file's bytes and the disposition `attachment; filename=<name>`; 404 "Result file not found" exactly when nothing exists there; a directory makes opening the stream throw, and the exception route (lines 71-76) answers 500 with the error envelope of code -1 |
| Server.ResultFileConfined | deer-server/src/main/java/org/aksw/deer/server/Server.java:160-161 | the served path is the job's directory plus `/` plus the last component of the requested path: separator-free, a suffix of the normalised request, and preceded there by a separator or by nothing |
| Lifecycle.FinishJob | deer-server/src/main/java/org/aksw/deer/server/Server.java:106-109 | a job's future completing marks that job done, and it changes no other job and no file |
| Lifecycle.AppendLog | deer-server/src/main/java/org/aksw/deer/server/Server.java:130 | a running job's log output appends to `logs/<id>.log`, the old content stays a prefix, and no other file, directory or job changes |
| Lifecycle.WriteResult | deer-server/src/main/java/org/aksw/deer/server/Server.java:59 | a job's output file lands in its working directory with exactly the written bytes; no other file, no directory and no job changes |
| Lifecycle.StepKeepsJobs | deer-server/src/main/java/org/aksw/deer/server/Server.java:101-106 | every step keeps the invariant that registered jobs have their working directory; no job disappears; done stays done; directories only grow |
| Lifecycle.SubmitKeepsJobs | deer-server/src/main/java/org/aksw/deer/server/Server.java:101-106 | a submit keeps the invariant, keeps every registered job and its done flag, and only adds directories |
| Lifecycle.RunKeepsJobs | deer-server/src/main/java/org/aksw/deer/server/Server.java:42 | over any run of steps no job disappears, done stays done, and the invariant holds |
| Lifecycle.SubmittedJobStaysKnown | deer-server/src/main/java/org/aksw/deer/server/Server.java:114-126 | after a successful submit, status never answers "not found" for that id, whatever happens afterwards |
| Lifecycle.FailedSubmitRegistersNothing | deer-server/src/main/java/org/aksw/deer/server/Server.java:89-104 | after a failed submit, an id nobody registered is still unknown |
| Lifecycle.StorageLayout | deer-server/src/main/java/org/aksw/deer/server/Server.java:34-36 | the storage path is the storage root plus a separator, the root is a normal path without a trailing separator, and the path contains no `deer_cfg_` |
| Lifecycle.LogLayout | deer-server/src/main/java/org/aksw/deer/server/Server.java:34-35 | `STORAGE_DIR_PATH` and `LOG_DIR_PATH` normalise to the storage root and to its `logs` directory |
| Lifecycle.DigitIdExtracted | deer-server/src/main/java/org/aksw/deer/server/Server.java:98-100 | a file staged as `./.server-storage/deer_cfg_<digits>.ttl` yields those digits as its id |
| Lifecycle.FirstSubmit | deer-server/src/main/java/org/aksw/deer/server/Server.java:89-112 | on a fresh server, submitting such a staged file answers 200 with the id, registers it as running and creates its working directory |
| Lifecycle.SubmitRunFetch | deer-server/src/main/java/org/aksw/deer/server/Server.java:89-199 | end to end: submit answers 200 with the id; status is running; after the job writes a file and finishes, status is done, the results list exactly that file, and fetching it returns its bytes |
| DerefConfig.InitializeOperations | deer-core/src/main/java/org/aksw/deer/enrichments/DereferencingEnrichmentOperator.java:154-174 | every operation's property pair lands in the group of its `(lookUpProperty, prefix)` key; every stored pair comes from some operation with that key; no group is empty |
| DerefConfig.GroupOf | deer-core/src/main/java/org/aksw/deer/enrichments/DereferencingEnrichmentOperator.java:160-168 | an operation's group key carries its lookup property and its prefix, or the DBpedia resource namespace when no prefix is given |
| DerefConfig.PairOf | deer-core/src/main/java/org/aksw/deer/enrichments/DereferencingEnrichmentOperator.java:164-172 | an operation's pair carries its dereferencing property and its import property, or the dereferencing property again when no import property is given |
| DerefConfig.Defaults | deer-core/src/main/java/org/aksw/deer/enrichments/DereferencingEnrichmentOperator.java:160-167 | an omitted prefix selects the DBpedia resource namespace, and an omitted import property imports under the dereferencing property |
| DerefConfig.SameKeySameGroup | deer-core/src/main/java/org/aksw/deer/enrichments/DereferencingEnrichmentOperator.java:168-172 | two operations with the same lookup property and effective prefix share one group holding both pairs |
| DerefConfig.GroupEquals | deer-core/src/main/java/org/aksw/deer/enrichments/DereferencingEnrichmentOperator.java:270-277 | `OperationGroup.equals` holds exactly for structurally equal groups |
| DerefConfig.GroupHash | deer-core/src/main/java/org/aksw/deer/enrichments/DereferencingEnrichmentOperator.java:279-282 | the hash is a 32-bit int: the prefix's hash plus 13 times the property's hash, with -1 for a missing property, in wrapping `int` arithmetic |
| DerefConfig.EqualGroupsHashEqually | deer-core/src/main/java/org/aksw/deer/enrichments/DereferencingEnrichmentOperator.java:269-282 | equal groups hash equally, as `HashMap` requires |
| DerefConfig.GroupEqualsIsEquivalence | deer-core/src/main/java/org/aksw/deer/enrichments/DereferencingEnrichmentOperator.java:269-277 | `equals` is reflexive, symmetric and transitive |
| Dereferencing.QueryResourceModel | deer-core/src/main/java/org/aksw/deer/enrichments/DereferencingEnrichmentOperator.java:209-242 | a URI that is not a URL yields an empty model; otherwise the fetch's outcome, where a throwing fetch aborts |
| Dereferencing.EnrichmentPairsFor | deer-core/src/main/java/org/aksw/deer/enrichments/DereferencingEnrichmentOperator.java:198-207 | an `(import, y)` pair is produced exactly for a configured pair and a described statement `(o, deref, y)`, where a null `deref` matches any predicate |
| Dereferencing.ListStatements | deer-core/src/main/java/org/aksw/deer/enrichments/DereferencingEnrichmentOperator.java:245 | the listing holds every statement of the model exactly once |
| Dereferencing.GetCandidateNodes | deer-core/src/main/java/org/aksw/deer/enrichments/DereferencingEnrichmentOperator.java:244-250 | a statement is kept exactly when its object is a URI starting with the prefix and, when a lookup property is set, its predicate is that property |
| Dereferencing.DistinctObjects | deer-core/src/main/java/org/aksw/deer/enrichments/DereferencingEnrichmentOperator.java:187-189 | holds each candidate object exactly once |
| Dereferencing.Dereference | deer-core/src/main/java/org/aksw/deer/enrichments/DereferencingEnrichmentOperator.java:187-190 | fetches the objects in order, each once; on a failure every fetch before the last one succeeded and the last one threw; on success each object maps to its enrichment pairs |
| Dereferencing.RunOperation | deer-core/src/main/java/org/aksw/deer/enrichments/DereferencingEnrichmentOperator.java:184-196 | succeeds exactly when no candidate fetch throws and no candidate has a described statement matching a pair whose import property is null; the result is then the model plus exactly the reference additions `GroupAdditions`; each candidate URI is fetched exactly once |
| Dereferencing.AddEnrichments | deer-core/src/main/java/org/aksw/deer/enrichments/DereferencingEnrichmentOperator.java:191-195 | adding the dereferenced pairs under each candidate's subject yields the model plus the reference additions, or throws exactly when some addition has a null property |
| Dereferencing.AddedIsGroupAdditions | deer-core/src/main/java/org/aksw/deer/enrichments/DereferencingEnrichmentOperator.java:191-195 | the triples added via the dereferenced map are exactly the reference additions |
| Dereferencing.NullImportIff | deer-core/src/main/java/org/aksw/deer/enrichments/DereferencingEnrichmentOperator.java:191-195 | the dereferenced map holds a null-property pair for a candidate exactly when the reference says some addition needs a null property |
| Dereferencing.ApplyGroupsGrows | deer-core/src/main/java/org/aksw/deer/enrichments/DereferencingEnrichmentOperator.java:179-180 | applying groups one after another only ever adds statements |
| Dereferencing.KeysInSomeOrder | deer-core/src/main/java/org/aksw/deer/enrichments/DereferencingEnrichmentOperator.java:180 | the `HashMap` iteration visits every group key exactly once |
| Dereferencing.SafeApply | deer-core/src/main/java/org/aksw/deer/enrichments/DereferencingEnrichmentOperator.java:176-182 | no input model throws; otherwise it succeeds exactly when the group-by-group reference application does, gives the same model, and that model contains the input; with no operations it returns the input |
| Dereferencing.MalformedUrisAddNothing | deer-core/src/main/java/org/aksw/deer/enrichments/DereferencingEnrichmentOperator.java:222-227 | when every candidate object's URI is not a URL, the group adds nothing and cannot fail |
| Dereferencing.AdditionsComeFromCandidates | deer-core/src/main/java/org/aksw/deer/enrichments/DereferencingEnrichmentOperator.java:191-195 | every added statement has a candidate's subject and a configured import property as predicate |

## Left out

- HTTP routing, thread pool, CORS filters, multipart parsing, `getFileName`
  and JSON rendering (Spark, Jetty, Gson) are left out. Replies are structured
  values, and `Server.UnknownRouteReply` stands for the `notFound` route.
- MIME sniffing in `handleResult` is an input (`sniffed`).
- `createTempFile` is an input (`staged`): the random part of its name is not
  modelled. Reading the upload is an input (`upload`). `mkdir` refusing for any
  reason other than an existing path is an input (`mkdirFault`).
- The job run itself (`DeerController.runDeer`), MDC, and the asynchronous
  future are modelled only by their effects on the state: the `Lifecycle`
  steps. Real concurrency between handlers and the job is not modelled; each
  handler is one atomic step.
- `Thread.sleep(500)` and the timing of `handleLogs` are not modelled. The
  environment supplies the observations of each round. The loop is bounded by
  the trace: `complete = false` means the trace ended first.
- Server.HandleSubmit: `new File(uploadDir.getAbsoluteFile(), id)` is modelled
  relative to the working directory (the absolute prefix is the same for every
  path).
- `File` path resolution of `.` and `..` is not modelled. Paths are compared
  after separator normalisation only, so a requested file name `..` is looked
  up as a literal entry of that name.
- Characters outside the Basic Multilingual Plane (surrogate pairs) are
  treated as single characters. `\d` is taken as ASCII digits.
- `Objects.requireNonNull` on `listFiles()` is not modelled as a failure: for
  an existing directory the listing is never null here.
- Closing streams and I/O errors while streaming a file are not modelled.
- The real HTTP fetch behind `queryResourceModel` (URL parsing, content
  negotiation, RDF/XML parsing, connection errors) is the `Web` oracle.
- Jena's `getPropertyResourceValue(...).as(Property.class)` on a configured
  literal value, and parameter validation against the SHACL shape, are not
  modelled. Operations carry their properties as optional URIs.
- `getPropertyDifference` and the commented-out `selfConfig` are not modelled:
  nothing in the operator calls them.
- Dereferencing.RunOperation: the `Property[]` arrays live in a `HashSet` with
  identity equality, so equal pairs may be stored twice. The model keeps a set
  of pairs. Adding the same statement twice leaves a model unchanged, so the
  result is the same.
- Dereferencing.SafeApply: results are stated for the iteration order the
  method enumerates. Nothing is claimed about independence from that order,
  because each group's candidates are taken from the model as the earlier
  groups left it.
- Dereferencing.RunOperation: when a fetch throws or an addition has a null
  property, the model does not say which statements were added before the
  exception. `safeApply` propagates the exception, so no result model is
  returned.

=== FILE: deref_config.dfy ===
/**
 * The configuration side of the dereferencing enrichment operator: RDF terms,
 * the configured operations, and how `initializeOperations` groups them by
 * `(lookUpProperty, lookUpPrefix)` into `OperationGroup` keys. A Jena
 * `Property` is modelled by its URI; `null` is `None`.
 */
module DerefConfig {
  import opened Wrappers
  import JavaLang

  type Property = string

  /** An RDF term. Only URI resources are ever dereferenced. */
  datatype Node = Uri(uri: string) | Blank(blankId: string) | Literal(lexical: string)

  datatype Triple = Triple(s: Node, p: Property, o: Node)

  /** One `:operation` resource of the configuration, with each optional
      property present (`Some`) or omitted (`None`). */
  datatype Operation = Operation(
    lookUpPrefix: Option<string>,
    lookUpProperty: Option<Property>,
    dereferencingProperty: Option<Property>,
    importProperty: Option<Property>)

  /** `OperationGroup`. */
  datatype Group = Group(lookupProperty: Option<Property>, lookupPrefix: string)

  /** The `Property[]{dereferencingProperty, importProperty}` pair. */
  datatype PropertyPair = PropertyPair(deref: Option<Property>, imp: Option<Property>)

  const DEFAULT_LOOKUP_PREFIX: string := "http://dbpedia.org/resource"

  /** The group key of one operation, with the default prefix filled in. */
  function GroupOf(op: Operation): (g: Group)
    ensures g.lookupProperty == op.lookUpProperty
    ensures op.lookUpPrefix.Some? ==> g.lookupPrefix == op.lookUpPrefix.value
    ensures op.lookUpPrefix.None? ==> g.lookupPrefix == DEFAULT_LOOKUP_PREFIX
  {
    Group(op.lookUpProperty, op.lookUpPrefix.GetOr(DEFAULT_LOOKUP_PREFIX))
  }

  /** The property pair of one operation; the import property defaults to the
      dereferencing property. */
  function PairOf(op: Operation): (pair: PropertyPair)
    ensures pair.deref == op.dereferencingProperty
    ensures op.importProperty.Some? ==> pair.imp == op.importProperty
    ensures op.importProperty.None? ==> pair.imp == op.dereferencingProperty
  {
    PropertyPair(op.dereferencingProperty,
                 if op.importProperty.Some? then op.importProperty else op.dereferencingProperty)
  }

  /** `initializeOperations`: every operation's pair lands in the set of the
      group with its key, and nothing else does. */
  function InitializeOperations(ops: seq<Operation>): (groups: map<Group, set<PropertyPair>>)
    ensures forall i :: 0 <= i < |ops| ==> GroupOf(ops[i]) in groups && PairOf(ops[i]) in groups[GroupOf(ops[i])]
    ensures forall g, pair :: g in groups && pair in groups[g] ==>
      exists i :: 0 <= i < |ops| && GroupOf(ops[i]) == g && PairOf(ops[i]) == pair
    ensures forall g :: g in groups ==> groups[g] != {}
    decreases |ops|
  {
    if |ops| == 0 then map[]
    else
      var init := ops[..|ops| - 1];
      var earlier := InitializeOperations(init);
      var op := ops[|ops| - 1];
      var key := GroupOf(op);
      var groups := earlier[key := (if key in earlier then earlier[key] else {}) + {PairOf(op)}];
      assert ops == init + [op];
      InsertPlacesAll(init, op, earlier, groups);
      InsertAddsOnlyOps(init, op, earlier, groups);
      groups
  }

  /** Adding one operation's pair keeps every earlier operation placed and
      places the new one. */
  lemma InsertPlacesAll(init: seq<Operation>, op: Operation, earlier: map<Group, set<PropertyPair>>,
                        groups: map<Group, set<PropertyPair>>)
    requires forall i :: 0 <= i < |init| ==> GroupOf(init[i]) in earlier && PairOf(init[i]) in earlier[GroupOf(init[i])]
    requires groups == earlier[GroupOf(op) := (if GroupOf(op) in earlier then earlier[GroupOf(op)] else {}) + {PairOf(op)}]
    ensures var ops := init + [op];
      forall i :: 0 <= i < |ops| ==> GroupOf(ops[i]) in groups && PairOf(ops[i]) in groups[GroupOf(ops[i])]
  {
    var ops := init + [op];
    forall i | 0 <= i < |ops|
      ensures GroupOf(ops[i]) in groups && PairOf(ops[i]) in groups[GroupOf(ops[i])]
    {
      if i < |init| {
        assert ops[i] == init[i];
      }
    }
  }

  /** Adding one operation's pair stores nothing that no operation supplies. */
  lemma InsertAddsOnlyOps(init: seq<Operation>, op: Operation, earlier: map<Group, set<PropertyPair>>,
                          groups: map<Group, set<PropertyPair>>)
    requires forall g, pair :: g in earlier && pair in earlier[g] ==>
      exists i :: 0 <= i < |init| && GroupOf(init[i]) == g && PairOf(init[i]) == pair
    requires groups == earlier[GroupOf(op) := (if GroupOf(op) in earlier then earlier[GroupOf(op)] else {}) + {PairOf(op)}]
    ensures var ops := init + [op];
      forall g, pair :: g in groups && pair in groups[g] ==>
        exists i :: 0 <= i < |ops| && GroupOf(ops[i]) == g && PairOf(ops[i]) == pair
  {
    var ops := init + [op];
    forall g, pair | g in groups && pair in groups[g]
      ensures exists i :: 0 <= i < |ops| && GroupOf(ops[i]) == g && PairOf(ops[i]) == pair
    {
      if g == GroupOf(op) && pair == PairOf(op) {
        assert GroupOf(ops[|ops| - 1]) == g && PairOf(ops[|ops| - 1]) == pair;
      } else {
        assert g in earlier && pair in earlier[g];
        var i :| 0 <= i < |init| && GroupOf(init[i]) == g && PairOf(init[i]) == pair;
        assert ops[i] == init[i];
      }
    }
  }

  /** The configured defaults: an omitted `lookUpPrefix` selects the DBpedia
      resource namespace, and an omitted `importProperty` imports under the
      dereferencing property. */
  lemma Defaults(ops: seq<Operation>, i: nat)
    requires i < |ops|
    ensures ops[i].lookUpPrefix.None? ==>
      Group(ops[i].lookUpProperty, DEFAULT_LOOKUP_PREFIX) in InitializeOperations(ops)
    ensures ops[i].importProperty.None? ==>
      PropertyPair(ops[i].dereferencingProperty, ops[i].dereferencingProperty)
        in InitializeOperations(ops)[GroupOf(ops[i])]
  {
  }

  /** Two operations with the same lookup property and effective prefix share
      one group, holding both their pairs. */
  lemma SameKeySameGroup(ops: seq<Operation>, i: nat, j: nat)
    requires i < |ops| && j < |ops|
    requires ops[i].lookUpProperty == ops[j].lookUpProperty
    requires ops[i].lookUpPrefix.GetOr(DEFAULT_LOOKUP_PREFIX) == ops[j].lookUpPrefix.GetOr(DEFAULT_LOOKUP_PREFIX)
    ensures GroupOf(ops[i]) == GroupOf(ops[j])
    ensures {PairOf(ops[i]), PairOf(ops[j])} <= InitializeOperations(ops)[GroupOf(ops[i])]
  {
  }

  /** `Objects.equals` on two possibly-null values. */
  predicate ObjectsEquals<T(==)>(a: Option<T>, b: Option<T>) {
    if a.None? then b.None? else b.Some? && a.value == b.value
  }

  /** `OperationGroup.equals`: null-safe, field by field; it is exactly
      structural equality, so a Dafny map keyed by `Group` behaves like the
      `HashMap`. */
  predicate GroupEquals(a: Group, b: Group)
    ensures GroupEquals(a, b) <==> a == b
  {
    ObjectsEquals(Some(a.lookupPrefix), Some(b.lookupPrefix)) && ObjectsEquals(a.lookupProperty, b.lookupProperty)
  }

  /** `OperationGroup.hashCode` in 32-bit arithmetic; `propertyHash` is Jena's
      `hashCode` of a property, which this model does not look inside. */
  function GroupHash(g: Group, propertyHash: Property -> int): (h: int)
    ensures JavaLang.IsInt32(h)
    ensures g.lookupProperty.None? ==> h == JavaLang.Wrap(JavaLang.StringHash(g.lookupPrefix) - 13)
    ensures g.lookupProperty.Some? ==>
      h == JavaLang.Wrap(JavaLang.StringHash(g.lookupPrefix) + 13 * JavaLang.Wrap(propertyHash(g.lookupProperty.value)))
  {
    var prefixHash := JavaLang.StringHash(g.lookupPrefix);
    var propHash := if g.lookupProperty.None? then -1 else JavaLang.Wrap(propertyHash(g.lookupProperty.value));
    JavaLang.WrapCongruent(prefixHash + JavaLang.Wrap(13 * propHash), prefixHash + 13 * propHash);
    JavaLang.Wrap(prefixHash + JavaLang.Wrap(13 * propHash))
  }

  /** Equal groups have equal hash codes, as the `HashMap` contract requires. */
  lemma EqualGroupsHashEqually(a: Group, b: Group, propertyHash: Property -> int)
    requires GroupEquals(a, b)
    ensures GroupHash(a, propertyHash) == GroupHash(b, propertyHash)
  {
  }

  /** `equals` is an equivalence relation. */
  lemma GroupEqualsIsEquivalence(a: Group, b: Group, c: Group)
    ensures GroupEquals(a, a)
    ensures GroupEquals(a, b) ==> GroupEquals(b, a)
    ensures GroupEquals(a, b) && GroupEquals(b, c) ==> GroupEquals(a, c)
  {
  }
}

=== FILE: dereferencing.dfy ===
/**
 * The dereferencing enrichment operator over a finite set of triples (Jena's
 * `Model` is a set of statements). For each operation group it selects the
 * candidate statements, fetches the description of each distinct candidate
 * object once, and adds `(s, import, y)` for every `(o, deref, y)` found
 * there. Fetching is an oracle; the `HashMap` order of the groups is an input.
 */
module Dereferencing {
  import opened Wrappers
  import JavaLang
  import opened DerefConfig

  /** The outside world `queryResourceModel` talks to: whether `new URL(uri)`
      accepts the URI, and what fetching it yields (`None` when the fetch
      throws, which aborts the whole operator). */
  datatype Web = Web(parsesAsUrl: string -> bool, fetch: string -> Option<set<Triple>>)

  /** Why `safeApply` throws. */
  datatype Failure =
    | NoInputModel             // the first input model is asked for, and there is none
    | FetchFailed(uri: string) // `queryResourceModel` rethrew a connection failure
    | NullImportProperty       // a statement is added under a null property: neither import nor dereferencing property given

  /** `queryResourceModel`: a URI that is not a URL yields an empty model. */
  function QueryResourceModel(web: Web, uri: string): (r: Option<set<Triple>>)
    ensures !web.parsesAsUrl(uri) ==> r == Some({})
    ensures web.parsesAsUrl(uri) ==> r == web.fetch(uri)
  {
    if web.parsesAsUrl(uri) then web.fetch(uri) else Some({})
  }

  /** The description of a resource, empty when the fetch fails. */
  function Description(web: Web, uri: string): set<Triple> {
    QueryResourceModel(web, uri).GetOr({})
  }

  /** The filter in `getCandidateNodes`. */
  predicate IsCandidate(t: Triple, g: Group) {
    && t.o.Uri?
    && JavaLang.StartsWith(t.o.uri, g.lookupPrefix)
    && (g.lookupProperty.None? || t.p == g.lookupProperty.value)
  }

  /** Statement selection about `o` with property `d`: a null property matches every predicate. */
  predicate DerefMatches(deref: Option<Property>, p: Property) {
    deref.None? || deref.value == p
  }

  /** An entry of the list `getEnrichmentPairsFor` returns: import property and value. */
  datatype Enrichment = Enrichment(imp: Option<Property>, value: Node)

  /** `getEnrichmentPairsFor`, given the fetched description of `o`. */
  function EnrichmentPairsFor(o: Node, pairs: set<PropertyPair>, description: set<Triple>): (r: set<Enrichment>)
    ensures forall pair, d :: (pair in pairs && d in description && d.s == o && DerefMatches(pair.deref, d.p)
                               ==> Enrichment(pair.imp, d.o) in r)
    ensures forall e :: e in r ==> (exists pair, d :: (pair in pairs && d in description && d.s == o
                                                       && DerefMatches(pair.deref, d.p) && e == Enrichment(pair.imp, d.o)))
  {
    set pair, d | pair in pairs && d in description && d.s == o && DerefMatches(pair.deref, d.p)
      :: Enrichment(pair.imp, d.o)
  }

  /** The triples one group should add, stated directly over candidates,
      pairs and descriptions: `(s, i, y)` for every candidate `(s, p, o)`,
      every pair `(d, i)` and every `(o, d, y)` in the description of `o`. */
  function GroupAdditions(model: set<Triple>, g: Group, pairs: set<PropertyPair>, web: Web): set<Triple> {
    set c, pair, d | c in model && IsCandidate(c, g) && pair in pairs && pair.imp.Some?
                     && d in Description(web, c.o.uri) && d.s == c.o && DerefMatches(pair.deref, d.p)
      :: Triple(c.s, pair.imp.value, d.o)
  }

  /** Some candidate object's fetch throws. */
  ghost predicate SomeFetchFails(model: set<Triple>, g: Group, web: Web) {
    exists c :: c in model && IsCandidate(c, g) && QueryResourceModel(web, c.o.uri).None?
  }

  /** Some triple would have to be added under a null property. */
  ghost predicate SomeNullImport(model: set<Triple>, g: Group, pairs: set<PropertyPair>, web: Web) {
    exists c, pair, d :: c in model && IsCandidate(c, g) && pair in pairs && pair.imp.None?
                         && d in Description(web, c.o.uri) && d.s == c.o && DerefMatches(pair.deref, d.p)
  }

  /** The model's statements listed in some order, each once. */
  method ListStatements(model: set<Triple>) returns (xs: seq<Triple>)
    ensures forall t :: t in xs <==> t in model
    ensures forall i, j :: 0 <= i < j < |xs| ==> xs[i] != xs[j]
  {
    xs := [];
    var rest := model;
    while rest != {}
      invariant forall t :: t in model <==> t in xs || t in rest
      invariant forall t :: t in xs ==> t !in rest
      invariant forall i, j :: 0 <= i < j < |xs| ==> xs[i] != xs[j]
      decreases rest
    {
      var t :| t in rest;
      xs := xs + [t];
      rest := rest - {t};
    }
  }

  /** `getCandidateNodes`: keeps the statements that pass the filter, in order. */
  method GetCandidateNodes(statements: seq<Triple>, g: Group) returns (candidates: seq<Triple>)
    ensures forall t :: t in candidates <==> t in statements && IsCandidate(t, g)
  {
    candidates := [];
    var i := 0;
    while i < |statements|
      invariant i <= |statements|
      invariant forall t :: t in candidates <==> t in statements[..i] && IsCandidate(t, g)
    {
      if IsCandidate(statements[i], g) {
        candidates := candidates + [statements[i]];
      }
      assert statements[..i + 1] == statements[..i] + [statements[i]];
      i := i + 1;
    }
  }

  /** The objects of the candidate statements, without repetition. */
  method DistinctObjects(candidates: seq<Triple>) returns (objects: seq<Node>)
    ensures forall o :: o in objects <==> exists c :: c in candidates && c.o == o
    ensures forall i, j :: 0 <= i < j < |objects| ==> objects[i] != objects[j]
  {
    objects := [];
    var i := 0;
    while i < |candidates|
      invariant i <= |candidates|
      invariant forall o :: o in objects <==> exists c :: c in candidates[..i] && c.o == o
      invariant forall k, l :: 0 <= k < l < |objects| ==> objects[k] != objects[l]
    {
      assert candidates[..i + 1] == candidates[..i] + [candidates[i]];
      if candidates[i].o !in objects {
        objects := objects + [candidates[i].o];
      }
      i := i + 1;
    }
  }

  /** The loop filling `dereffedPerResource`: fetches each object once, in
      order, and stops at the first fetch that throws. `fetched` lists the URIs
      fetched. */
  method Dereference(objects: seq<Node>, pairs: set<PropertyPair>, web: Web)
    returns (dereffed: map<Node, set<Enrichment>>, fetched: seq<string>, failed: Option<string>)
    requires forall o :: o in objects ==> o.Uri?
    requires forall i, j :: 0 <= i < j < |objects| ==> objects[i] != objects[j]
    ensures |fetched| <= |objects|
    ensures forall i :: 0 <= i < |fetched| ==> objects[i].Uri? && fetched[i] == objects[i].uri
    ensures failed.None? <==> forall o :: o in objects ==> QueryResourceModel(web, o.uri).Some?
    ensures failed.None? ==> |fetched| == |objects|
    ensures failed.Some? ==> (0 < |fetched| && failed.value == fetched[|fetched| - 1]
                              && QueryResourceModel(web, failed.value).None?)
    ensures failed.Some? ==> forall k :: 0 <= k < |fetched| - 1 ==> QueryResourceModel(web, fetched[k]).Some?
    ensures failed.None? ==> forall o :: o in dereffed <==> o in objects
    ensures failed.None? ==> forall o :: o in dereffed ==>
      o.Uri? && dereffed[o] == EnrichmentPairsFor(o, pairs, Description(web, o.uri))
  {
    dereffed := map[];
    fetched := [];
    failed := None;
    var i := 0;
    while i < |objects|
      invariant i <= |objects| && |fetched| == i
      invariant forall k :: 0 <= k < i ==> fetched[k] == objects[k].uri
      invariant forall k :: 0 <= k < i ==> QueryResourceModel(web, objects[k].uri).Some?
      invariant forall o :: o in dereffed <==> o in objects[..i]
      invariant forall o :: o in dereffed ==> o.Uri? && dereffed[o] == EnrichmentPairsFor(o, pairs, Description(web, o.uri))
    {
      var o := objects[i];
      var description := QueryResourceModel(web, o.uri);
      fetched := fetched + [o.uri];
      if description.None? {
        failed := Some(o.uri);
        return;
      }
      dereffed := dereffed[o := EnrichmentPairsFor(o, pairs, description.value)];
      assert objects[..i + 1] == objects[..i] + [o];
      i := i + 1;
    }
    assert objects[..i] == objects;
  }

  /** `runOperation` for one group: lists the model's statements, keeps the
      candidates, dereferences each distinct candidate object once, and then
      adds the enrichment pairs under every candidate's subject. A fetch that
      throws aborts before anything is added; a pair with a null import
      property aborts at `addProperty`. */
  method RunOperation(model: set<Triple>, g: Group, pairs: set<PropertyPair>, web: Web)
    returns (r: Result<set<Triple>, Failure>, fetched: seq<string>)
    ensures r.Success? <==> !SomeFetchFails(model, g, web) && !SomeNullImport(model, g, pairs, web)
    ensures r.Success? ==> r.value == model + GroupAdditions(model, g, pairs, web)
    ensures r.Failure? && r.error.FetchFailed? ==> (exists c :: c in model && IsCandidate(c, g) && c.o.uri == r.error.uri)
                                                   && QueryResourceModel(web, r.error.uri).None?
    ensures r.Failure? ==> r.error.FetchFailed? || (r.error == NullImportProperty && !SomeFetchFails(model, g, web))
    ensures forall i, j :: 0 <= i < j < |fetched| ==> fetched[i] != fetched[j]
    ensures forall u :: u in fetched ==> exists c :: c in model && IsCandidate(c, g) && c.o.uri == u
    ensures r.Success? ==> forall c :: c in model && IsCandidate(c, g) ==> c.o.uri in fetched
  {
    var statements := ListStatements(model);
    var candidates := GetCandidateNodes(statements, g);
    var objects := DistinctObjects(candidates);
    var dereffed: map<Node, set<Enrichment>>, failed: Option<string>;
    dereffed, fetched, failed := Dereference(objects, pairs, web);
    FetchedAreCandidates(model, g, candidates, objects, fetched);
    if failed.Some? {
      assert objects[|fetched| - 1] in objects;
      r := Failure(FetchFailed(failed.value));
      return;
    }
    AllFetched(model, g, web, candidates, objects, fetched);
    assert Dereffed(model, g, pairs, web, candidates, dereffed);
    r := AddEnrichments(model, g, pairs, web, candidates, dereffed);
  }

  /** The second half of `runOperation`: adds every dereferenced pair under
      every candidate's subject, throwing on a null import property. */
  method AddEnrichments(model: set<Triple>, g: Group, pairs: set<PropertyPair>, web: Web,
                        candidates: seq<Triple>, dereffed: map<Node, set<Enrichment>>)
    returns (r: Result<set<Triple>, Failure>)
    requires Dereffed(model, g, pairs, web, candidates, dereffed)
    ensures r.Success? <==> !SomeNullImport(model, g, pairs, web)
    ensures r.Success? ==> r.value == model + GroupAdditions(model, g, pairs, web)
    ensures r.Failure? ==> r.error == NullImportProperty
  {
    var nullImport := exists c: Triple, e: Enrichment :: c in candidates && c.o in dereffed && e in dereffed[c.o] && e.imp.None?;
    NullImportIff(model, g, pairs, web, candidates, dereffed);
    if nullImport {
      return Failure(NullImportProperty);
    }
    var added := set c: Triple, e: Enrichment | c in candidates && c.o in dereffed && e in dereffed[c.o] && e.imp.Some?
      :: Triple(c.s, e.imp.value, e.value);
    AddedIsGroupAdditions(model, g, pairs, web, candidates, dereffed, added);
    r := Success(model + added);
  }

  lemma FetchedAreCandidates(model: set<Triple>, g: Group, candidates: seq<Triple>, objects: seq<Node>, fetched: seq<string>)
    requires forall t :: t in candidates <==> t in model && IsCandidate(t, g)
    requires forall o :: o in objects <==> exists c :: c in candidates && c.o == o
    requires |fetched| <= |objects|
    requires forall i :: 0 <= i < |fetched| ==> objects[i].Uri? && fetched[i] == objects[i].uri
    ensures forall u :: u in fetched ==> exists c :: c in model && IsCandidate(c, g) && c.o.uri == u
  {
    forall u | u in fetched
      ensures exists c :: c in model && IsCandidate(c, g) && c.o.uri == u
    {
      var i :| 0 <= i < |fetched| && fetched[i] == u;
      assert objects[i] in objects;
    }
  }

  lemma AllFetched(model: set<Triple>, g: Group, web: Web, candidates: seq<Triple>, objects: seq<Node>, fetched: seq<string>)
    requires forall t :: t in candidates <==> t in model && IsCandidate(t, g)
    requires forall o :: o in objects <==> exists c :: c in candidates && c.o == o
    requires forall o :: o in objects ==> o.Uri? && QueryResourceModel(web, o.uri).Some?
    requires |fetched| == |objects|
    requires forall i :: 0 <= i < |fetched| ==> objects[i].Uri? && fetched[i] == objects[i].uri
    ensures !SomeFetchFails(model, g, web)
    ensures forall c :: c in model && IsCandidate(c, g) ==> c.o.uri in fetched
  {
    forall c | c in model && IsCandidate(c, g)
      ensures QueryResourceModel(web, c.o.uri).Some? && c.o.uri in fetched
    {
      assert c.o in objects;
      var i :| 0 <= i < |objects| && objects[i] == c.o;
      assert fetched[i] == c.o.uri;
    }
  }

  /** The state `runOperation` reaches after its dereferencing loop succeeds. */
  ghost predicate Dereffed(model: set<Triple>, g: Group, pairs: set<PropertyPair>, web: Web,
                           candidates: seq<Triple>, dereffed: map<Node, set<Enrichment>>)
  {
    && (forall t :: t in candidates <==> t in model && IsCandidate(t, g))
    && (forall c :: c in candidates ==> c.o in dereffed)
    && (forall o :: o in dereffed ==> o.Uri? && dereffed[o] == EnrichmentPairsFor(o, pairs, Description(web, o.uri)))
  }

  /** The null-import check over the dereferenced map agrees with the reference. */
  lemma NullImportIff(model: set<Triple>, g: Group, pairs: set<PropertyPair>, web: Web,
                      candidates: seq<Triple>, dereffed: map<Node, set<Enrichment>>)
    requires Dereffed(model, g, pairs, web, candidates, dereffed)
    ensures (exists c: Triple, e: Enrichment :: c in candidates && c.o in dereffed && e in dereffed[c.o] && e.imp.None?)
            <==> SomeNullImport(model, g, pairs, web)
  {
    if exists c: Triple, e: Enrichment :: c in candidates && c.o in dereffed && e in dereffed[c.o] && e.imp.None? {
      var c, e :| c in candidates && c.o in dereffed && e in dereffed[c.o] && e.imp.None?;
      NullImportFound(model, g, pairs, web, candidates, dereffed, c, e);
    }
    if SomeNullImport(model, g, pairs, web) {
      var c, pair, d :| c in model && IsCandidate(c, g) && pair in pairs && pair.imp.None?
                        && d in Description(web, c.o.uri) && d.s == c.o && DerefMatches(pair.deref, d.p);
      var e := DereffedHas(model, g, pairs, web, candidates, dereffed, c, pair, d);
    }
  }

  lemma NullImportFound(model: set<Triple>, g: Group, pairs: set<PropertyPair>, web: Web,
                        candidates: seq<Triple>, dereffed: map<Node, set<Enrichment>>, c: Triple, e: Enrichment)
    requires Dereffed(model, g, pairs, web, candidates, dereffed)
    requires c in candidates && c.o in dereffed && e in dereffed[c.o] && e.imp.None?
    ensures SomeNullImport(model, g, pairs, web)
  {
    var pair, d := DereffedFrom(model, g, pairs, web, candidates, dereffed, c, e);
  }

  /** An entry of the dereferenced map comes from a pair and a described statement. */
  lemma DereffedFrom(model: set<Triple>, g: Group, pairs: set<PropertyPair>, web: Web,
                     candidates: seq<Triple>, dereffed: map<Node, set<Enrichment>>, c: Triple, e: Enrichment)
    returns (pair: PropertyPair, d: Triple)
    requires Dereffed(model, g, pairs, web, candidates, dereffed)
    requires c in candidates && c.o in dereffed && e in dereffed[c.o]
    ensures c in model && IsCandidate(c, g)
    ensures pair in pairs && d in Description(web, c.o.uri) && d.s == c.o && DerefMatches(pair.deref, d.p)
    ensures e == Enrichment(pair.imp, d.o)
  {
    assert e in EnrichmentPairsFor(c.o, pairs, Description(web, c.o.uri));
    pair, d :| pair in pairs && d in Description(web, c.o.uri) && d.s == c.o
               && DerefMatches(pair.deref, d.p) && e == Enrichment(pair.imp, d.o);
  }

  /** A pair and a described statement for a candidate give an entry of the dereferenced map. */
  lemma DereffedHas(model: set<Triple>, g: Group, pairs: set<PropertyPair>, web: Web,
                    candidates: seq<Triple>, dereffed: map<Node, set<Enrichment>>, c: Triple, pair: PropertyPair, d: Triple)
    returns (e: Enrichment)
    requires Dereffed(model, g, pairs, web, candidates, dereffed)
    requires c in model && IsCandidate(c, g)
    requires pair in pairs && d in Description(web, c.o.uri) && d.s == c.o && DerefMatches(pair.deref, d.p)
    ensures c in candidates && c.o in dereffed && e in dereffed[c.o]
    ensures e == Enrichment(pair.imp, d.o)
  {
    e := Enrichment(pair.imp, d.o);
    assert c in candidates;
    assert e in EnrichmentPairsFor(c.o, pairs, Description(web, c.o.uri));
  }

  /** The triples `runOperation` adds are exactly the reference additions. */
  lemma AddedIsGroupAdditions(model: set<Triple>, g: Group, pairs: set<PropertyPair>, web: Web,
                              candidates: seq<Triple>, dereffed: map<Node, set<Enrichment>>, added: set<Triple>)
    requires Dereffed(model, g, pairs, web, candidates, dereffed)
    requires added == set c: Triple, e: Enrichment | c in candidates && c.o in dereffed && e in dereffed[c.o] && e.imp.Some?
                        :: Triple(c.s, e.imp.value, e.value)
    ensures added == GroupAdditions(model, g, pairs, web)
  {
    AddedWithinGroupAdditions(model, g, pairs, web, candidates, dereffed, added);
    GroupAdditionsWithinAdded(model, g, pairs, web, candidates, dereffed, added);
  }

  lemma AddedWithinGroupAdditions(model: set<Triple>, g: Group, pairs: set<PropertyPair>, web: Web,
                                  candidates: seq<Triple>, dereffed: map<Node, set<Enrichment>>, added: set<Triple>)
    requires Dereffed(model, g, pairs, web, candidates, dereffed)
    requires added == set c: Triple, e: Enrichment | c in candidates && c.o in dereffed && e in dereffed[c.o] && e.imp.Some?
                        :: Triple(c.s, e.imp.value, e.value)
    ensures added <= GroupAdditions(model, g, pairs, web)
  {
    forall t | t in added
      ensures t in GroupAdditions(model, g, pairs, web)
    {
      var c, e :| c in candidates && c.o in dereffed && e in dereffed[c.o] && e.imp.Some?
                  && t == Triple(c.s, e.imp.value, e.value);
      var pair, d := DereffedFrom(model, g, pairs, web, candidates, dereffed, c, e);
    }
  }

  lemma GroupAdditionsWithinAdded(model: set<Triple>, g: Group, pairs: set<PropertyPair>, web: Web,
                                  candidates: seq<Triple>, dereffed: map<Node, set<Enrichment>>, added: set<Triple>)
    requires Dereffed(model, g, pairs, web, candidates, dereffed)
    requires added == set c: Triple, e: Enrichment | c in candidates && c.o in dereffed && e in dereffed[c.o] && e.imp.Some?
                        :: Triple(c.s, e.imp.value, e.value)
    ensures GroupAdditions(model, g, pairs, web) <= added
  {
    forall t | t in GroupAdditions(model, g, pairs, web)
      ensures t in added
    {
      var c, pair, d :| c in model && IsCandidate(c, g) && pair in pairs && pair.imp.Some?
                        && d in Description(web, c.o.uri) && d.s == c.o && DerefMatches(pair.deref, d.p)
                        && t == Triple(c.s, pair.imp.value, d.o);
      var e := DereffedHas(model, g, pairs, web, candidates, dereffed, c, pair, d);
    }
  }

  /** The reference meaning of running every group of the operations map: the
      groups applied one after another in `order`, each to the model the
      previous ones produced; `None` when some group throws. */
  ghost function ApplyGroups(model: set<Triple>, order: seq<Group>, groups: map<Group, set<PropertyPair>>, web: Web)
    : Option<set<Triple>>
    requires forall g :: g in order ==> g in groups
    decreases |order|
  {
    if |order| == 0 then Some(model)
    else
      var g := order[0];
      if SomeFetchFails(model, g, web) || SomeNullImport(model, g, groups[g], web) then None
      else ApplyGroups(model + GroupAdditions(model, g, groups[g], web), order[1..], groups, web)
  }

  /** Enrichment only ever adds statements. */
  lemma {:induction false} ApplyGroupsGrows(model: set<Triple>, order: seq<Group>, groups: map<Group, set<PropertyPair>>, web: Web)
    requires forall g :: g in order ==> g in groups
    requires ApplyGroups(model, order, groups, web).Some?
    ensures model <= ApplyGroups(model, order, groups, web).value
    decreases |order|
  {
    if |order| > 0 {
      var g := order[0];
      ApplyGroupsGrows(model + GroupAdditions(model, g, groups[g], web), order[1..], groups, web);
    }
  }

  /** The `HashMap`'s iteration order: its keys, each once, in some order. */
  method KeysInSomeOrder(groups: map<Group, set<PropertyPair>>) returns (order: seq<Group>)
    ensures forall g :: g in order <==> g in groups
    ensures forall i, j :: 0 <= i < j < |order| ==> order[i] != order[j]
  {
    order := [];
    var rest := groups.Keys;
    while rest != {}
      invariant forall g :: g in groups <==> g in order || g in rest
      invariant forall g :: g in order ==> g !in rest
      invariant forall i, j :: 0 <= i < j < |order| ==> order[i] != order[j]
      decreases rest
    {
      var g :| g in rest;
      order := order + [g];
      rest := rest - {g};
    }
  }

  /** `safeApply`: groups the operations, copies the first input model and
      runs every group on it in the map's iteration order `order`. */
  method SafeApply(models: seq<set<Triple>>, ops: seq<Operation>, web: Web)
    returns (r: Result<set<Triple>, Failure>, order: seq<Group>)
    ensures forall g :: g in order <==> g in InitializeOperations(ops)
    ensures forall i, j :: 0 <= i < j < |order| ==> order[i] != order[j]
    ensures r == Failure(NoInputModel) <==> |models| == 0
    ensures |models| > 0 ==> (r.Success? <==> ApplyGroups(models[0], order, InitializeOperations(ops), web).Some?)
    ensures r.Success? ==> Some(r.value) == ApplyGroups(models[0], order, InitializeOperations(ops), web)
    ensures r.Success? ==> models[0] <= r.value
    ensures |models| > 0 && |ops| == 0 ==> r == Success(models[0])
  {
    var groups := InitializeOperations(ops);
    order := KeysInSomeOrder(groups);
    if |models| == 0 {
      r := Failure(NoInputModel);
      return;
    }
    var model := models[0];
    var i := 0;
    while i < |order|
      invariant i <= |order|
      invariant ApplyGroups(models[0], order, groups, web) == ApplyGroups(model, order[i..], groups, web)
      invariant models[0] <= model
    {
      var g := order[i];
      assert order[i..][1..] == order[i + 1..];
      var step, _ := RunOperation(model, g, groups[g], web);
      if step.Failure? {
        r := Failure(step.error);
        return;
      }
      model := step.value;
      i := i + 1;
    }
    r := Success(model);
    ApplyGroupsGrows(models[0], order, groups, web);
  }

  /** URIs that are not URLs are looked up to an empty model: a group whose
      candidate objects are all malformed adds nothing and cannot fail. */
  lemma MalformedUrisAddNothing(model: set<Triple>, g: Group, pairs: set<PropertyPair>, web: Web)
    requires forall c :: c in model && IsCandidate(c, g) ==> !web.parsesAsUrl(c.o.uri)
    ensures GroupAdditions(model, g, pairs, web) == {}
    ensures !SomeFetchFails(model, g, web) && !SomeNullImport(model, g, pairs, web)
  {
  }

  /** Every added statement hangs off the subject of a candidate statement,
      under an import property of the group. */
  lemma AdditionsComeFromCandidates(model: set<Triple>, g: Group, pairs: set<PropertyPair>, web: Web, t: Triple)
    requires t in GroupAdditions(model, g, pairs, web)
    ensures exists c :: c in model && IsCandidate(c, g) && c.s == t.s
    ensures exists pair :: pair in pairs && pair.imp == Some(t.p)
  {
  }
}

=== FILE: java_file.dfy ===
/**
 * The part of `java.io.File` on a Unix file system that the server depends on:
 * path normalisation (repeated separators collapse, a trailing separator is
 * dropped) and `getName`, the last name component of a path.
 */
module JavaFile {
  import JavaLang

  const SEPARATOR: char := '/'

  /** No two separators are adjacent. */
  predicate NoDoubleSeparator(p: string) {
    forall i :: 0 <= i < |p| - 1 ==> !(p[i] == SEPARATOR && p[i + 1] == SEPARATOR)
  }

  /** The shape `java.io.File` keeps every path in. */
  predicate IsNormal(p: string) {
    NoDoubleSeparator(p) && (|p| > 1 ==> p[|p| - 1] != SEPARATOR)
  }

  /** Collapses every run of separators into one. */
  function Collapse(p: string): (r: string)
    ensures NoDoubleSeparator(r)
    ensures |r| <= |p|
    ensures |p| > 0 ==> |r| > 0 && r[0] == p[0] && r[|r| - 1] == p[|p| - 1]
    ensures |p| == 0 ==> r == []
    ensures NoDoubleSeparator(p) ==> r == p
  {
    if |p| <= 1 then p
    else if p[0] == SEPARATOR && p[1] == SEPARATOR then Collapse(p[1..])
    else [p[0]] + Collapse(p[1..])
  }

  /** `UnixFileSystem.normalize`: the path a `File` built from `p` holds. */
  function Normalize(p: string): (r: string)
    ensures IsNormal(r)
    ensures IsNormal(p) ==> r == p
    ensures |p| > 0 ==> |r| > 0
  {
    var c := Collapse(p);
    if |c| > 1 && c[|c| - 1] == SEPARATOR then c[..|c| - 1] else c
  }

  /** `new File(p).getName()`: what follows the last separator of the normalised path. */
  function Name(p: string): (r: string)
    ensures SEPARATOR !in r
    ensures var n := Normalize(p);
      && |r| <= |n|
      && n[|n| - |r|..] == r
      && (|r| == |n| || n[|n| - |r| - 1] == SEPARATOR)
    ensures (SEPARATOR !in p && |p| > 0) ==> r == p
  {
    var n := Normalize(p);
    var k := JavaLang.LastIndexOf(n, [SEPARATOR]);
    AfterLastSeparator(n, k);
    assert (SEPARATOR !in p && |p| > 0) ==> n[k + 1..] == p by {
      if SEPARATOR !in p && |p| > 0 {
        PlainNameIsNormal(p);
        NoSeparatorNoOccurrence(n);
      }
    }
    n[k + 1..]
  }

  /** Nothing after the last separator is a separator, and the last separator is one. */
  lemma AfterLastSeparator(n: string, k: int)
    requires k == JavaLang.LastIndexOf(n, [SEPARATOR])
    ensures -1 <= k < |n|
    ensures SEPARATOR !in n[k + 1..]
    ensures k >= 0 ==> n[k] == SEPARATOR
  {
    if k >= 0 {
      assert n[k..k + 1] == [SEPARATOR];
    }
    forall i | k + 1 <= i < |n|
      ensures n[i] != SEPARATOR
    {
      assert !JavaLang.OccursAt(n, [SEPARATOR], i);
      assert n[i..i + 1] == [n[i]];
    }
  }

  lemma PlainNameIsNormal(p: string)
    requires SEPARATOR !in p
    ensures IsNormal(p)
  {
    assert forall i :: 0 <= i < |p| ==> p[i] != SEPARATOR;
  }

  lemma NoSeparatorNoOccurrence(n: string)
    requires SEPARATOR !in n
    ensures JavaLang.LastIndexOf(n, [SEPARATOR]) == -1
  {
    forall k | 0 <= k < |n|
      ensures !JavaLang.OccursAt(n, [SEPARATOR], k)
    {
      assert n[k..k + 1][0] == n[k];
    }
  }

  /** Appending a plain name to a normal path that does not end in a
      separator keeps it normal. */
  lemma NormalJoin(dir: string, name: string)
    requires IsNormal(dir) && |dir| > 0 && dir[|dir| - 1] != SEPARATOR
    requires |name| > 0 && SEPARATOR !in name
    ensures IsNormal(dir + [SEPARATOR] + name)
    ensures Normalize(dir + [SEPARATOR] + name) == dir + [SEPARATOR] + name
  {
    var p := dir + [SEPARATOR] + name;
    forall i | 0 <= i < |p| - 1
      ensures !(p[i] == SEPARATOR && p[i + 1] == SEPARATOR)
    {
      if i < |dir| - 1 {
        assert p[i] == dir[i] && p[i + 1] == dir[i + 1];
      } else if i == |dir| - 1 {
        assert p[i] == dir[|dir| - 1];
      } else {
        assert p[i + 1] == name[i + 1 - |dir| - 1];
      }
    }
    assert p[|p| - 1] == name[|name| - 1];
  }

  /** A doubled separator collapses like a single one. With the fixed-point
      clause of `Collapse` this determines `Collapse` on every input. */
  lemma {:induction false} CollapseRepeat(a: string, b: string)
    ensures Collapse(a + [SEPARATOR, SEPARATOR] + b) == Collapse(a + [SEPARATOR] + b)
    decreases |a|
  {
    var p := a + [SEPARATOR, SEPARATOR] + b;
    var q := a + [SEPARATOR] + b;
    if |a| == 0 {
      assert p[1..] == q;
    } else {
      assert p[1..] == a[1..] + [SEPARATOR, SEPARATOR] + b;
      assert q[1..] == a[1..] + [SEPARATOR] + b;
      assert p[0] == q[0] && p[1] == q[1];
      CollapseRepeat(a[1..], b);
    }
  }

  /** Appending a separator to a non-empty path: swallowed after a separator,
      kept after anything else. */
  lemma {:induction false} CollapseAppendSeparator(p: string)
    requires |p| > 0
    ensures Collapse(p + [SEPARATOR]) ==
      if p[|p| - 1] == SEPARATOR then Collapse(p) else Collapse(p) + [SEPARATOR]
    decreases |p|
  {
    var q := p + [SEPARATOR];
    if |p| == 1 {
      assert q[1..] == [SEPARATOR];
    } else {
      assert q[1..] == p[1..] + [SEPARATOR];
      CollapseAppendSeparator(p[1..]);
      if !(p[0] == SEPARATOR && p[1] == SEPARATOR) {
        assert Collapse(q) == [p[0]] + Collapse(p[1..] + [SEPARATOR]);
        assert Collapse(p) == [p[0]] + Collapse(p[1..]);
      }
    }
  }

  /** `File` treats a doubled separator like a single one. */
  lemma NormalizeRepeat(a: string, b: string)
    ensures Normalize(a + [SEPARATOR, SEPARATOR] + b) == Normalize(a + [SEPARATOR] + b)
  {
    CollapseRepeat(a, b);
  }

  /** `File` drops a trailing separator. With `NormalizeRepeat` and the
      fixed-point clause of `Normalize` this determines `Normalize` on every
      non-empty input. */
  lemma NormalizeDropsTrailingSeparator(p: string)
    requires |p| > 0
    ensures Normalize(p + [SEPARATOR]) == Normalize(p)
  {
    CollapseAppendSeparator(p);
  }
}

=== FILE: java_lang.dfy ===
/**
 * The few `java.lang` operations the server and the enrichment operator rely on:
 * 32-bit `int` arithmetic, `String.indexOf`, `String.lastIndexOf`,
 * `String.substring`, `String.startsWith` and `String.hashCode`.
 * A Java `char` is modelled as one Dafny `char`; surrogate pairs are not split.
 */
module JavaLang {
  import opened Wrappers

  const TWO_32: int := 0x1_0000_0000
  const INT_MIN: int := -0x8000_0000
  const INT_MAX: int := 0x7FFF_FFFF

  predicate IsInt32(x: int) {
    INT_MIN <= x <= INT_MAX
  }

  /** Two's-complement wrap-around of a Java `int` operation. */
  function Wrap(x: int): (r: int)
    ensures IsInt32(r)
    ensures (r - x) % TWO_32 == 0
    ensures IsInt32(x) ==> r == x
  {
    (x - INT_MIN) % TWO_32 + INT_MIN
  }

  /** `p` occurs in `s` starting at index `k`. */
  predicate OccursAt(s: string, p: string, k: int) {
    0 <= k && k + |p| <= |s| && s[k..k + |p|] == p
  }

  /** `s.indexOf(p, from)`: the first occurrence at or after `from`, or -1. */
  function IndexFrom(s: string, p: string, from: nat): (r: int)
    ensures r == -1 || (from <= r && OccursAt(s, p, r))
    ensures r == -1 ==> forall k :: from <= k ==> !OccursAt(s, p, k)
    ensures r != -1 ==> forall k :: from <= k < r ==> !OccursAt(s, p, k)
    decreases |s| - from
  {
    if from + |p| > |s| then -1
    else if s[from..from + |p|] == p then from
    else IndexFrom(s, p, from + 1)
  }

  /** `s.indexOf(p)`. */
  function IndexOf(s: string, p: string): (r: int)
    ensures r == -1 <==> forall k :: !OccursAt(s, p, k)
    ensures r != -1 ==> OccursAt(s, p, r) && forall k :: k < r ==> !OccursAt(s, p, k)
  {
    IndexFrom(s, p, 0)
  }

  /** `s.lastIndexOf(p, from)`: the last occurrence at or before `from`, or -1. */
  function LastIndexFrom(s: string, p: string, from: int): (r: int)
    ensures r == -1 || (r <= from && OccursAt(s, p, r))
    ensures r == -1 ==> forall k :: k <= from ==> !OccursAt(s, p, k)
    ensures r != -1 ==> forall k :: r < k <= from ==> !OccursAt(s, p, k)
    decreases from + 1
  {
    if from < 0 then -1
    else if OccursAt(s, p, from) then from
    else LastIndexFrom(s, p, from - 1)
  }

  /** `s.lastIndexOf(p)`. */
  function LastIndexOf(s: string, p: string): (r: int)
    ensures r == -1 <==> forall k :: !OccursAt(s, p, k)
    ensures r != -1 ==> OccursAt(s, p, r) && forall k :: r < k ==> !OccursAt(s, p, k)
  {
    LastIndexFrom(s, p, |s| - |p|)
  }

  /** The bounds that `String.substring` reports when it throws. */
  datatype OutOfBounds = OutOfBounds(begin: int, end: int, length: int)

  /** `s.substring(begin, end)`, which throws unless `0 <= begin <= end <= s.length()`. */
  function Substring(s: string, begin: int, end: int): (r: Result<string, OutOfBounds>)
    ensures r.Success? <==> 0 <= begin <= end <= |s|
    ensures r.Success? ==> |r.value| == end - begin
    ensures r.Success? ==> forall i :: 0 <= i < |r.value| ==> r.value[i] == s[begin + i]
    ensures r.Failure? ==> r.error == OutOfBounds(begin, end, |s|)
  {
    if 0 <= begin <= end <= |s| then Success(s[begin..end])
    else Failure(OutOfBounds(begin, end, |s|))
  }

  /** `s.startsWith(p)`. */
  predicate StartsWith(s: string, p: string) {
    OccursAt(s, p, 0)
  }

  /** `String.hashCode`: `s[0]*31^(n-1) + ... + s[n-1]` in 32-bit arithmetic. */
  function StringHash(s: string): (r: int)
    ensures IsInt32(r)
    ensures |s| == 0 ==> r == 0
  {
    if |s| == 0 then 0
    else Wrap(31 * StringHash(s[..|s| - 1]) + s[|s| - 1] as int)
  }

  /** The value Java documents for `String.hashCode`,
      `s[0]*31^(n-1) + ... + s[n-1]`, in unbounded arithmetic. */
  ghost function Poly(s: string): int
    decreases |s|
  {
    if |s| == 0 then 0 else s[0] as int * Pow31(|s| - 1) + Poly(s[1..])
  }

  ghost function Pow31(n: nat): int {
    if n == 0 then 1 else 31 * Pow31(n - 1)
  }

  /** Horner's rule: the documented sum taken one character at a time from the front. */
  lemma {:induction false} PolyHorner(s: string)
    requires |s| > 0
    ensures Poly(s) == 31 * Poly(s[..|s| - 1]) + s[|s| - 1] as int
    decreases |s|
  {
    if |s| > 1 {
      var t := s[1..];
      PolyHorner(t);
      assert t[..|t| - 1] == s[..|s| - 1][1..];
      assert Pow31(|s| - 1) == 31 * Pow31(|s| - 2);
    } else {
      assert s[1..] == [];
    }
  }

  /** Values congruent modulo 2^32 wrap to the same `int`. */
  lemma WrapCongruent(a: int, b: int)
    requires (a - b) % TWO_32 == 0
    ensures Wrap(a) == Wrap(b)
  {
    var k1 := (Wrap(a) - a) / TWO_32;
    var k2 := (a - b) / TWO_32;
    var k3 := (Wrap(b) - b) / TWO_32;
    assert Wrap(a) - a == k1 * TWO_32;
    assert a - b == k2 * TWO_32;
    assert Wrap(b) - b == k3 * TWO_32;
    assert Wrap(a) - Wrap(b) == (k1 + k2 - k3) * TWO_32;
  }

  /** `StringHash` computes the documented `String.hashCode` value, wrapped to 32 bits. */
  lemma {:induction false} StringHashIsPoly(s: string)
    ensures StringHash(s) == Wrap(Poly(s))
    decreases |s|
  {
    if |s| > 0 {
      var init := s[..|s| - 1];
      var c := s[|s| - 1] as int;
      StringHashIsPoly(init);
      PolyHorner(s);
      var h, p := StringHash(init), Poly(init);
      assert (h - p) % TWO_32 == 0;
      TimesCongruent(h, p, c);
      WrapCongruent(31 * h + c, 31 * p + c);
    }
  }

  /** One Horner step keeps two values congruent modulo 2^32. */
  lemma TimesCongruent(h: int, p: int, c: int)
    requires (h - p) % TWO_32 == 0
    ensures ((31 * h + c) - (31 * p + c)) % TWO_32 == 0
  {
    var d := h - p;
    var k := d / TWO_32;
    assert d == k * TWO_32;
    var m := 31 * k;
    assert (31 * h + c) - (31 * p + c) == 31 * d;
    assert 31 * d == m * TWO_32;
  }

  /** A pattern whose first character does not appear in `s` does not occur in `s`. */
  lemma AbsentFirstCharNoOccurrence(s: string, p: string)
    requires |p| > 0 && p[0] !in s
    ensures forall k :: !OccursAt(s, p, k)
  {
    forall k | 0 <= k && k + |p| <= |s|
      ensures !OccursAt(s, p, k)
    {
      assert s[k..k + |p|][0] == s[k];
    }
  }
}

=== FILE: lifecycle.dfy ===
/**
 * The server as a state machine: the handlers that change state (submit) and
 * the effects of the asynchronous job run (`DeerController.runDeer` writing
 * its log and results, and the completion of its future), and what holds
 * across any sequence of them. The query handlers return a reply and leave
 * the state as it is.
 */
module Lifecycle {
  import opened Wrappers
  import JavaFile
  import JavaLang
  import opened ServerIds
  import opened TailFollow
  import opened Server

  /** One atomic step of the server or of a running job. */
  datatype Step =
    | SubmitStep(staged: Result<Path, Exception>, upload: Result<Bytes, Exception>, mkdirFault: bool)
    | JobFinishes(id: string)
    | LogWritten(id: string, data: Bytes)
    | ResultWritten(id: string, name: string, data: Bytes)

  /** The job's future completes, normally or exceptionally. */
  function FinishJob(st: State, id: string): (st': State)
    ensures st'.registry.Keys == st.registry.Keys
    ensures forall k :: k in st.registry && k != id ==> st'.registry[k] == st.registry[k]
    ensures id in st.registry ==> st'.registry[id]
    ensures st'.fs == st.fs
  {
    if id in st.registry then st.(registry := st.registry[id := true]) else st
  }

  /** The job's logging appends to `logs/<id>.log`. */
  function AppendLog(st: State, id: string, data: Bytes): (st': State)
    ensures st'.registry == st.registry && st'.fs.dirs == st.fs.dirs
    ensures var p := JavaFile.Normalize(LogFile(id));
      st'.fs.files == st.fs.files[p := (if p in st.fs.files then st.fs.files[p] else []) + data]
    ensures var p := JavaFile.Normalize(LogFile(id));
      p in st.fs.files ==> IsPrefix(st.fs.files[p], st'.fs.files[p])
  {
    var p := JavaFile.Normalize(LogFile(id));
    var before := if p in st.fs.files then st.fs.files[p] else [];
    st.(fs := st.fs.(files := st.fs.files[p := before + data]))
  }

  /** The job writes a result file into its working directory. */
  function WriteResult(st: State, id: string, name: string, data: Bytes): (st': State)
    ensures st'.registry == st.registry && st'.fs.dirs == st.fs.dirs
    ensures st'.fs.files == st.fs.files[JavaFile.Normalize(STORAGE_DIR_PATH + id + "/" + name) := data]
  {
    st.(fs := st.fs.(files := st.fs.files[JavaFile.Normalize(STORAGE_DIR_PATH + id + "/" + name) := data]))
  }

  function Next(st: State, step: Step): State {
    match step
    case SubmitStep(staged, upload, fault) => HandleSubmit(st, staged, upload, fault).0
    case JobFinishes(id) => FinishJob(st, id)
    case LogWritten(id, data) => AppendLog(st, id, data)
    case ResultWritten(id, name, data) => WriteResult(st, id, name, data)
  }

  function Run(st: State, steps: seq<Step>): State
    decreases |steps|
  {
    if |steps| == 0 then st else Run(Next(st, steps[0]), steps[1..])
  }

  /** Every registered job has its working directory. Since directories are
      never removed, `mkdir` cannot succeed twice for one id. */
  ghost predicate Invariant(st: State) {
    forall id :: id in st.registry ==> WorkingDir(id) in st.fs.dirs
  }

  /** One step keeps the invariant, removes no job, and never turns a finished
      job back into a running one. */
  lemma StepKeepsJobs(st: State, step: Step)
    requires Invariant(st)
    ensures Invariant(Next(st, step))
    ensures st.registry.Keys <= Next(st, step).registry.Keys
    ensures forall id :: id in st.registry && st.registry[id] ==> Next(st, step).registry[id]
    ensures st.fs.dirs <= Next(st, step).fs.dirs
  {
    match step
    case SubmitStep(staged, upload, fault) =>
      SubmitKeepsJobs(st, staged, upload, fault);
    case JobFinishes(id) =>
    case LogWritten(id, data) =>
    case ResultWritten(id, name, data) =>
  }

  /** A submit keeps the invariant and every registered job: a new job gets a
      fresh id, because its working directory did not exist before. */
  lemma SubmitKeepsJobs(st: State, staged: Result<Path, Exception>, upload: Result<Bytes, Exception>, fault: bool)
    requires Invariant(st)
    ensures var st' := HandleSubmit(st, staged, upload, fault).0;
      && Invariant(st')
      && st.registry.Keys <= st'.registry.Keys
      && (forall id :: id in st.registry && st.registry[id] ==> st'.registry[id])
      && st.fs.dirs <= st'.fs.dirs
  {
    var out := HandleSubmit(st, staged, upload, fault);
    var st' := out.0;
    if out.1.status == 200 {
      var id := out.1.body.requestId;
      assert WorkingDir(id) !in st.fs.dirs;
      assert id !in st.registry;
      assert st'.registry == st.registry[id := false];
      assert st'.fs.dirs == st.fs.dirs + {WorkingDir(id)};
      forall j | j in st'.registry
        ensures WorkingDir(j) in st'.fs.dirs
      {
        if j != id {
          assert j in st.registry;
        }
      }
    } else {
      assert st'.registry == st.registry && st'.fs.dirs == st.fs.dirs;
    }
  }

  /** Across any run: no job disappears, and a finished job stays finished. */
  lemma {:induction false} RunKeepsJobs(st: State, steps: seq<Step>)
    requires Invariant(st)
    ensures Invariant(Run(st, steps))
    ensures st.registry.Keys <= Run(st, steps).registry.Keys
    ensures forall id :: id in st.registry && st.registry[id] ==> Run(st, steps).registry[id]
    decreases |steps|
  {
    if |steps| > 0 {
      StepKeepsJobs(st, steps[0]);
      RunKeepsJobs(Next(st, steps[0]), steps[1..]);
    }
  }

  /** After a successful submit, a status request naming the returned id (up to
      non-digits) never answers "not found", whatever happens afterwards. */
  lemma SubmittedJobStaysKnown(st: State, staged: Result<Path, Exception>, upload: Result<Bytes, Exception>,
                               fault: bool, later: seq<Step>, rawId: string)
    requires Invariant(st)
    requires HandleSubmit(st, staged, upload, fault).1.status == 200
    requires Sanitize(rawId) == HandleSubmit(st, staged, upload, fault).1.body.requestId
    ensures HandleStatus(Run(HandleSubmit(st, staged, upload, fault).0, later), rawId).body.code != UNKNOWN
  {
    StepKeepsJobs(st, SubmitStep(staged, upload, fault));
    RunKeepsJobs(HandleSubmit(st, staged, upload, fault).0, later);
  }

  /** A failed submit registers nothing: status stays "not found" for an id
      nobody registered. */
  lemma FailedSubmitRegistersNothing(st: State, staged: Result<Path, Exception>, upload: Result<Bytes, Exception>,
                                     fault: bool, rawId: string)
    requires HandleSubmit(st, staged, upload, fault).1.status != 200
    requires Sanitize(rawId) !in st.registry
    ensures HandleStatus(HandleSubmit(st, staged, upload, fault).0, rawId).body.code == UNKNOWN
  {
  }

  /** The storage root as `java.io.File` holds it. */
  const STORAGE_ROOT: Path := "./.server-storage"

  /** A freshly started server: the storage root and its `logs` directory, no jobs. */
  function Initial(): State {
    State(map[], FileSystem({STORAGE_ROOT, STORAGE_ROOT + "/logs"}, map[]))
  }

  lemma StorageLayout()
    ensures STORAGE_DIR_PATH == STORAGE_ROOT + "/"
    ensures JavaFile.IsNormal(STORAGE_ROOT) && STORAGE_ROOT[|STORAGE_ROOT| - 1] != JavaFile.SEPARATOR
    ensures forall k :: !JavaLang.OccursAt(STORAGE_DIR_PATH, CONFIG_FILE_PREFIX, k)
  {
    RootIsNormal();
    assert CONFIG_FILE_PREFIX[0] !in STORAGE_DIR_PATH;
    JavaLang.AbsentFirstCharNoOccurrence(STORAGE_DIR_PATH, CONFIG_FILE_PREFIX);
  }

  lemma RootIsNormal()
    ensures JavaFile.IsNormal(STORAGE_ROOT)
  {
    JavaFile.NormalJoin(".", ".server-storage");
    assert "." + [JavaFile.SEPARATOR] + ".server-storage" == STORAGE_ROOT;
  }

  /** Both storage constants name the directories a fresh server creates. */
  lemma LogLayout()
    ensures JavaFile.Normalize(STORAGE_DIR_PATH) == STORAGE_ROOT
    ensures JavaFile.Normalize(LOG_DIR_PATH) == STORAGE_ROOT + "/logs"
  {
    StorageLayout();
    assert "logs" + "/" == "logs/";
    assert "/" + "logs" == "/logs";
    DirectoryPaths(STORAGE_ROOT, "logs", STORAGE_DIR_PATH, LOG_DIR_PATH);
  }

  /** A directory written with a trailing separator normalises to the
      directory, and a child written the same way under it to the child. */
  lemma DirectoryPaths(dir: Path, name: string, dirSlash: Path, childSlash: Path)
    requires JavaFile.IsNormal(dir) && |dir| > 0 && dir[|dir| - 1] != JavaFile.SEPARATOR
    requires |name| > 0 && JavaFile.SEPARATOR !in name
    requires dirSlash == dir + "/" && childSlash == dirSlash + (name + "/")
    ensures JavaFile.Normalize(dirSlash) == dir
    ensures JavaFile.Normalize(childSlash) == dir + ("/" + name)
  {
    assert childSlash == dir + "/" + name + "/";
    assert dir + ("/" + name) == dir + "/" + name;
    JavaFile.NormalizeDropsTrailingSeparator(dir);
    JavaFile.NormalJoin(dir, name);
    JavaFile.NormalizeDropsTrailingSeparator(dir + "/" + name);
  }

  /** The path of a plain name directly under a normal directory. */
  lemma ChildPath(dir: Path, name: string)
    requires JavaFile.IsNormal(dir) && |dir| > 0 && dir[|dir| - 1] != JavaFile.SEPARATOR
    requires |name| > 0 && JavaFile.SEPARATOR !in name
    ensures JavaFile.Normalize(dir + "/" + name) == dir + "/" + name
    ensures JavaFile.IsNormal(dir + "/" + name)
    ensures (dir + "/" + name)[|dir + "/" + name| - 1] != JavaFile.SEPARATOR
  {
    JavaFile.NormalJoin(dir, name);
    assert (dir + "/" + name)[|dir + "/" + name| - 1] == name[|name| - 1];
  }

  /** The file a fresh job's configuration is staged as. */
  function StagedFile(id: string): Path {
    STORAGE_DIR_PATH + CONFIG_FILE_PREFIX + id + CONFIG_FILE_SUFFIX
  }

  /** The state right after a successful first submit of job `id`. */
  function Submitted(id: string, config: Bytes): State {
    State(map[id := false],
          FileSystem({STORAGE_ROOT, STORAGE_ROOT + "/logs", STORAGE_ROOT + "/" + id}, map[StagedFile(id) := config]))
  }

  /** Facts about the paths of an all-digit job id. */
  lemma DigitIdPaths(id: string)
    requires |id| > 0 && AllDigits(id)
    ensures JavaFile.SEPARATOR !in id
    ensures JavaFile.Normalize(StagedFile(id)) == StagedFile(id)
    ensures WorkingDir(id) == STORAGE_ROOT + "/" + id == STORAGE_DIR_PATH + id
    ensures JavaFile.IsNormal(STORAGE_ROOT + "/" + id)
    ensures (STORAGE_ROOT + "/" + id)[|STORAGE_ROOT + "/" + id| - 1] != JavaFile.SEPARATOR
  {
    StorageLayout();
    var tempName := CONFIG_FILE_PREFIX + id + CONFIG_FILE_SUFFIX;
    assert StagedFile(id) == STORAGE_ROOT + "/" + tempName;
    assert forall i :: 0 <= i < |id| ==> IsDigit(id[i]);
    assert JavaFile.SEPARATOR !in tempName by {
      assert JavaFile.SEPARATOR !in CONFIG_FILE_PREFIX && JavaFile.SEPARATOR !in CONFIG_FILE_SUFFIX;
    }
    ChildPath(STORAGE_ROOT, tempName);
    ChildPath(STORAGE_ROOT, id);
    assert STORAGE_DIR_PATH + id == STORAGE_ROOT + "/" + id;
  }

  /** A staged file sits directly in the storage root and its name starts with `d`,
      which no job id (all digits) or the `logs` directory does. */
  lemma StagedFileShape(id: string)
    ensures |StagedFile(id)| > |STORAGE_ROOT| + 1 && StagedFile(id)[|STORAGE_ROOT| + 1] == 'd'
  {
    StorageLayout();
  }

  /** An all-digit id staged by `createTempFile` comes back out unchanged, and
      sanitising it leaves it as it is. */
  lemma DigitIdExtracted(id: string)
    requires |id| > 0 && AllDigits(id)
    ensures ExtractId(StagedFile(id)) == Success(id)
    ensures Sanitize(id) == id
  {
    StorageLayout();
    ExtractIdRoundTrip(STORAGE_DIR_PATH, id);
    SanitizeKeepsDigits(id);
  }

  /** The first submit of a configuration staged as `deer_cfg_<id>.ttl`
      succeeds with reply `id` and registers the job as running. */
  lemma FirstSubmit(id: string, config: Bytes)
    requires |id| > 0 && AllDigits(id)
    ensures HandleSubmit(Initial(), Success(StagedFile(id)), Success(config), false)
         == (Submitted(id, config), Reply(200, JSON, None, SubmitBody(id)))
  {
    DigitIdPaths(id);
    DigitIdExtracted(id);
    FreshWorkingDir(id, config);
    var st := Initial();
    var copied := FileSystem({STORAGE_ROOT, STORAGE_ROOT + "/logs"}, map[StagedFile(id) := config]);
    assert st.fs.(files := st.fs.files[JavaFile.Normalize(StagedFile(id)) := config]) == copied;
    var out := HandleSubmit(st, Success(StagedFile(id)), Success(config), false);
    assert out.1.status == 200;
    assert st.registry[id := false] == map[id := false];
    assert st.fs.dirs + {WorkingDir(id)} == {STORAGE_ROOT, STORAGE_ROOT + "/logs", STORAGE_ROOT + "/" + id};
    assert st.fs.files[StagedFile(id) := config] == map[StagedFile(id) := config];
  }

  /** Nothing exists yet where the first job's working directory goes. */
  lemma FreshWorkingDir(id: string, config: Bytes)
    requires |id| > 0 && AllDigits(id)
    ensures var copied := FileSystem({STORAGE_ROOT, STORAGE_ROOT + "/logs"}, map[StagedFile(id) := config]);
      MkdirSucceeds(copied, WorkingDir(id), false)
  {
    DigitIdPaths(id);
    StagedFileShape(id);
    var work := STORAGE_ROOT + "/" + id;
    assert work[|STORAGE_ROOT| + 1] == id[0] && IsDigit(id[0]);
    assert work != STORAGE_ROOT + "/logs" by {
      assert (STORAGE_ROOT + "/logs")[|STORAGE_ROOT| + 1] == 'l';
    }
    assert work != StagedFile(id);
    assert JavaFile.Normalize(work) == work;
  }

  /** In the submitted state plus one result file, the job's directory lists
      exactly that file. */
  lemma ListingAfterWrite(id: string, config: Bytes, name: string, output: Bytes)
    requires |id| > 0 && AllDigits(id)
    requires |name| > 0 && JavaFile.SEPARATOR !in name
    ensures var work := STORAGE_ROOT + "/" + id;
      var fs := Submitted(id, config).fs.(files := map[StagedFile(id) := config, work + "/" + name := output]);
      Listing(fs, work) == {name}
  {
    StagedFileShape(id);
    var work := STORAGE_ROOT + "/" + id;
    var file := work + "/" + name;
    var fs := Submitted(id, config).fs.(files := map[StagedFile(id) := config, file := output]);
    var listing := Listing(fs, work);
    forall n | n in listing
      ensures n == name
    {
      OnlyChildIsTheFile(id, config, name, output, n);
    }
    assert file[..|work| + 1] == work + "/";
    assert file[|work| + 1..] == name;
    assert name in listing;
  }

  lemma OnlyChildIsTheFile(id: string, config: Bytes, name: string, output: Bytes, n: string)
    requires |id| > 0 && AllDigits(id)
    requires StagedFile(id)[|STORAGE_ROOT| + 1] == 'd'
    requires |StagedFile(id)| > |STORAGE_ROOT| + 1
    requires var work := STORAGE_ROOT + "/" + id;
      var fs := Submitted(id, config).fs.(files := map[StagedFile(id) := config, work + "/" + name := output]);
      (work + "/" + n in fs.dirs || work + "/" + n in fs.files)
    ensures n == name
  {
    var work := STORAGE_ROOT + "/" + id;
    var file := work + "/" + name;
    var p := work + "/" + n;
    assert IsDigit(id[0]);
    assert p[|STORAGE_ROOT| + 1] == id[0];
    assert p != STORAGE_ROOT + "/logs" by {
      assert (STORAGE_ROOT + "/logs")[|STORAGE_ROOT| + 1] == 'l';
    }
    assert p != StagedFile(id);
    assert p == file;
    assert n == p[|work| + 1..] == file[|work| + 1..] == name;
  }

  /** The state after job `id` wrote `name` and finished. */
  function Finished(id: string, config: Bytes, name: string, output: Bytes): State {
    State(map[id := true],
          Submitted(id, config).fs.(files := map[StagedFile(id) := config, STORAGE_ROOT + "/" + id + "/" + name := output]))
  }

  lemma JobRuns(id: string, config: Bytes, name: string, output: Bytes)
    requires |id| > 0 && AllDigits(id)
    requires |name| > 0 && JavaFile.SEPARATOR !in name
    ensures Run(Submitted(id, config), [ResultWritten(id, name, output), JobFinishes(id)])
         == Finished(id, config, name, output)
  {
    DigitIdPaths(id);
    var work := STORAGE_ROOT + "/" + id;
    var file := work + "/" + name;
    ChildPath(work, name);
    assert STORAGE_DIR_PATH + id + "/" + name == file;
    var s1 := Submitted(id, config);
    var s2 := WriteResult(s1, id, name, output);
    assert s2.fs.files == map[StagedFile(id) := config, file := output];
    var steps := [ResultWritten(id, name, output), JobFinishes(id)];
    assert steps[1..] == [JobFinishes(id)];
    assert Run(s1, steps) == Run(s2, [JobFinishes(id)]);
    assert Run(s2, [JobFinishes(id)]) == FinishJob(s2, id);
    assert FinishJob(s2, id).registry == map[id := true];
  }

  lemma FinishedJobServesFile(id: string, config: Bytes, name: string, output: Bytes, mime: string)
    requires |id| > 0 && AllDigits(id)
    requires |name| > 0 && JavaFile.SEPARATOR !in name
    ensures HandleResult(Finished(id, config, name, output), id, name, mime).body == StreamBody(output, true)
  {
    var st := Finished(id, config, name, output);
    var file := STORAGE_ROOT + "/" + id + "/" + name;
    ResultFileOfJob(id, name);
    FileIsNotADirectory(id, config, name, output);
    assert file in st.fs.files;
  }

  lemma ResultFileOfJob(id: string, name: string)
    requires |id| > 0 && AllDigits(id)
    requires |name| > 0 && JavaFile.SEPARATOR !in name
    ensures JavaFile.Normalize(ResultFile(id, name)) == STORAGE_ROOT + "/" + id + "/" + name
  {
    DigitIdPaths(id);
    DigitIdExtracted(id);
    ChildPath(STORAGE_ROOT + "/" + id, name);
    assert ResultFile(id, name) == STORAGE_ROOT + "/" + id + "/" + name;
  }

  lemma FileIsNotADirectory(id: string, config: Bytes, name: string, output: Bytes)
    requires |id| > 0 && AllDigits(id)
    requires |name| > 0 && JavaFile.SEPARATOR !in name
    ensures STORAGE_ROOT + "/" + id + "/" + name !in Finished(id, config, name, output).fs.dirs
  {
    var work := STORAGE_ROOT + "/" + id;
    var file := work + "/" + name;
    assert IsDigit(id[0]);
    assert file[|STORAGE_ROOT| + 1] == id[0];
    assert (STORAGE_ROOT + "/logs")[|STORAGE_ROOT| + 1] == 'l';
    assert |file| > |work|;
  }

  lemma FinishedJobListsFile(id: string, config: Bytes, name: string, output: Bytes)
    requires |id| > 0 && AllDigits(id)
    requires |name| > 0 && JavaFile.SEPARATOR !in name
    ensures HandleResults(Finished(id, config, name, output), id).body == ResultsBody({name})
  {
    DigitIdPaths(id);
    DigitIdExtracted(id);
    ListingAfterWrite(id, config, name, output);
  }

  /** The end-to-end scenario: submit a configuration that is staged as
      `deer_cfg_<id>.ttl`, see the job running, let it write `name` into its
      working directory and finish, then see it done, find exactly `name`
      among its results and download its bytes. */
  lemma SubmitRunFetch(id: string, config: Bytes, name: string, output: Bytes, mime: string)
    requires |id| > 0 && AllDigits(id)
    requires |name| > 0 && JavaFile.SEPARATOR !in name
    ensures var out := HandleSubmit(Initial(), Success(StagedFile(id)), Success(config), false);
      && out.1 == Reply(200, JSON, None, SubmitBody(id))
      && HandleStatus(out.0, id).body.code == RUNNING
      && var done := Run(out.0, [ResultWritten(id, name, output), JobFinishes(id)]);
         && HandleStatus(done, id).body.code == DONE
         && HandleResults(done, id).body == ResultsBody({name})
         && HandleResult(done, id, name, mime).body == StreamBody(output, true)
  {
    FirstSubmit(id, config);
    DigitIdExtracted(id);
    JobRuns(id, config, name, output);
    FinishedJobListsFile(id, config, name, output);
    FinishedJobServesFile(id, config, name, output, mime);
  }
}

=== FILE: server.dfy ===
/**
 * The job server's handlers as atomic steps over `(registry, file system)`.
 * The registry maps a job id to whether its asynchronous run has finished
 * (success and failure both count as finished). The file system holds
 * directories and files keyed by normalised path. Spark routing, multipart
 * parsing, JSON rendering and MIME sniffing are outside the model; MIME
 * sniffing is an input.
 */
module Server {
  import opened Wrappers
  import JavaLang
  import JavaFile
  import opened ServerIds
  import opened TailFollow

  type Path = string

  datatype FileSystem = FileSystem(dirs: set<Path>, files: map<Path, Bytes>)

  datatype State = State(registry: map<string, bool>, fs: FileSystem)

  /** `File.exists()`. */
  predicate Exists(fs: FileSystem, p: Path) {
    JavaFile.Normalize(p) in fs.dirs || JavaFile.Normalize(p) in fs.files
  }

  /** `File.exists() && File.isDirectory()`. */
  predicate IsDirectory(fs: FileSystem, p: Path) {
    JavaFile.Normalize(p) in fs.dirs
  }

  /** Exceptions a handler can end with; all of them reach the catch-all handler. */
  datatype Exception =
    | IoFailure(reason: string)
    | StringIndexOutOfBounds(bounds: JavaLang.OutOfBounds)
    | CannotCreateDirectory(path: Path)
    | IsADirectory(path: Path)

  /** The `message` of an error envelope: fixed text, or the exception's message. */
  datatype Message = Text(text: string) | ExceptionMessage(exception: Exception)

  /** What a reply carries: one of the JSON messages, or raw streamed bytes.
      `complete` is false only for a log stream still following a running job. */
  datatype Body =
    | ErrorBody(code: int, message: Message)
    | SubmitBody(requestId: string)
    | StatusBody(code: int, description: string)
    | ResultsBody(availableFiles: set<string>)
    | StreamBody(content: Bytes, complete: bool)

  datatype Reply = Reply(status: int, contentType: string, disposition: Option<string>, body: Body)

  const JSON: string := "application/json"
  const TEXT: string := "text/plain"

  /** The JSON `success` member. Only `ErrorMessage` extends `ServerMessage`, so
      the other messages carry no `success` member at all. */
  function SuccessField(b: Body): (r: Option<bool>)
    ensures r.Some? <==> b.ErrorBody?
    ensures r.Some? ==> !r.value
  {
    if b.ErrorBody? then Some(false) else None
  }

  /** The catch-all exception handler: status 500, code -1. */
  function ExceptionReply(e: Exception, disposition: Option<string>): (r: Reply)
    ensures r.status == 500 && r.body.ErrorBody? && r.body.code == -1
    ensures r.body.message == ExceptionMessage(e)
  {
    Reply(500, JSON, disposition, ErrorBody(-1, ExceptionMessage(e)))
  }

  /** The `notFound` handler for routes nobody serves: status 404, code -2. */
  function UnknownRouteReply(): (r: Reply)
    ensures r.status == 404 && r.body.ErrorBody? && r.body.code == -2
  {
    Reply(404, JSON, None, ErrorBody(-2, Text("Route not known")))
  }

  /** A handler's own not-found answer: status 404, code 1. */
  function NotFoundReply(text: string): (r: Reply)
    ensures r.status == 404 && r.body.ErrorBody? && r.body.code == 1
  {
    Reply(404, JSON, None, ErrorBody(1, Text(text)))
  }

  /** The working directory of job `id`: the entry `id` of the storage root. */
  function WorkingDir(id: string): Path {
    JavaFile.Normalize(STORAGE_DIR_PATH + id)
  }

  /** The log file of job `id`. */
  function LogFile(id: string): Path {
    LOG_DIR_PATH + id + ".log"
  }

  /** `File.mkdir()`: succeeds only when nothing exists at `p`; `fault` stands
      for every other reason the file system refuses. */
  predicate MkdirSucceeds(fs: FileSystem, p: Path, fault: bool) {
    !Exists(fs, p) && !fault
  }

  /** `handleSubmit`. `staged` is what `createTempFile` returned (or threw),
      `upload` what reading the `config_file` part returned (or threw) and
      `mkdirFault` whether the file system refuses to create a fresh
      directory. Either an exception ends the request before anything is
      registered, or the id is registered as running before the 200 reply. */
  function HandleSubmit(st: State, staged: Result<Path, Exception>, upload: Result<Bytes, Exception>,
                  mkdirFault: bool): (out: (State, Reply))
    ensures out.1.status == 200 || out.1.status == 500
    ensures out.1.status == 500 ==> out.0.registry == st.registry && out.1.body.ErrorBody? && out.1.body.code == -1
    ensures out.1.status == 200 ==>
      && staged.Success? && upload.Success? && ExtractId(staged.value).Success?
      && out.1 == Reply(200, JSON, None, SubmitBody(ExtractId(staged.value).value))
      && out.1.body.SubmitBody?
      && out.0.registry == st.registry[out.1.body.requestId := false]
      && !Exists(st.fs, WorkingDir(out.1.body.requestId))
      && WorkingDir(out.1.body.requestId) in out.0.fs.dirs
    ensures out.1.status == 200 <==>
      && staged.Success? && upload.Success?
      && ExtractId(staged.value).Success?
      && MkdirSucceeds(st.fs.(files := st.fs.files[JavaFile.Normalize(staged.value) := upload.value]),
                       WorkingDir(ExtractId(staged.value).value), mkdirFault)
    ensures out.1.status == 200 ==>
      && out.0.fs.dirs == st.fs.dirs + {WorkingDir(out.1.body.requestId)}
      && out.0.fs.files == st.fs.files[JavaFile.Normalize(staged.value) := upload.value]
    ensures out.1.status == 500 ==> out.0.fs.dirs == st.fs.dirs
    ensures out.1.status == 500 && staged.Failure? ==> out.0 == st
    ensures out.1.status == 500 && staged.Success? ==>
      out.0.fs.files == st.fs.files[JavaFile.Normalize(staged.value) := if upload.Success? then upload.value else []]
    ensures st.fs.dirs <= out.0.fs.dirs
  {
    match staged
    case Failure(e) => (st, ExceptionReply(e, None))
    case Success(tempFile) =>
      var key := JavaFile.Normalize(tempFile);
      var created := st.fs.(files := st.fs.files[key := []]);
      match upload
      case Failure(e) => (st.(fs := created), ExceptionReply(e, None))
      case Success(content) =>
        var copied := st.fs.(files := st.fs.files[key := content]);
        match ExtractId(tempFile)
        case Failure(bounds) => (st.(fs := copied), ExceptionReply(StringIndexOutOfBounds(bounds), None))
        case Success(id) =>
          var workingDir := WorkingDir(id);
          if !MkdirSucceeds(copied, workingDir, mkdirFault) then
            (st.(fs := copied), ExceptionReply(CannotCreateDirectory(workingDir), None))
          else
            (State(st.registry[id := false], copied.(dirs := copied.dirs + {workingDir})),
             Reply(200, JSON, None, SubmitBody(id)))
  }

  const UNKNOWN: int := -1
  const RUNNING: int := 0
  const DONE: int := 1

  /** `handleStatus`: always status 200, with exactly one of the three codes. */
  function HandleStatus(st: State, rawId: string): (r: Reply)
    ensures r.status == 200 && r.body.StatusBody?
    ensures r.body.code == UNKNOWN <==> Sanitize(rawId) !in st.registry
    ensures r.body.code == RUNNING <==> Sanitize(rawId) in st.registry && !st.registry[Sanitize(rawId)]
    ensures r.body.code == DONE <==> Sanitize(rawId) in st.registry && st.registry[Sanitize(rawId)]
  {
    var id := Sanitize(rawId);
    if id !in st.registry then Reply(200, JSON, None, StatusBody(UNKNOWN, "Request ID not found"))
    else if !st.registry[id] then Reply(200, JSON, None, StatusBody(RUNNING, "Request is being processed"))
    else Reply(200, JSON, None, StatusBody(DONE, "Request has been processed"))
  }

  /** The value `finish` starts with in `handleLogs`: the job is unknown or done. */
  predicate InitiallyFinished(st: State, id: string) {
    id !in st.registry || st.registry[id]
  }

  /** The rounds `handleLogs` goes through: the first check reads the registry
      and the log as they are now; later rounds come from the environment. */
  function LogRounds(st: State, id: string, firstRead: Bytes, later: seq<Round>): seq<Round>
    requires JavaFile.Normalize(LogFile(id)) in st.fs.files
  {
    [Round(InitiallyFinished(st, id), st.fs.files[JavaFile.Normalize(LogFile(id))], firstRead)] + later
  }

  /** `handleLogs`. A missing log gives 404 with code 1 and streams nothing; an
      existing one is followed until the job is first seen done, and when the
      log only grows, the bytes streamed are the whole log as of the read that
      follows that done-check. */
  method HandleLogs(st: State, rawId: string, firstRead: Bytes, later: seq<Round>) returns (r: Reply)
    ensures !Exists(st.fs, LogFile(Sanitize(rawId))) ==>
      r.status == 404 && r.body == ErrorBody(1, Text("Logfile not found"))
    ensures r.body.StreamBody? <==> JavaFile.Normalize(LogFile(Sanitize(rawId))) in st.fs.files - st.fs.dirs
    ensures r.body.StreamBody? ==> r.status == 200 && r.contentType == TEXT
    ensures JavaFile.Normalize(LogFile(Sanitize(rawId))) in st.fs.dirs ==>
      r.status == 500 && r.body.ErrorBody? && r.body.code == -1
    ensures r.body.StreamBody? && InitiallyFinished(st, Sanitize(rawId)) ==>
      r.body == StreamBody(firstRead, true)
    ensures r.body.StreamBody? && Grows(LogRounds(st, Sanitize(rawId), firstRead, later)) ==>
      && IsPrefix(st.fs.files[JavaFile.Normalize(LogFile(Sanitize(rawId)))], r.body.content)
      && (r.body.complete ==> exists i :: 0 <= i < |later| + 1 && LogRounds(st, Sanitize(rawId), firstRead, later)[i].doneSeen
                                         && r.body.content == LogRounds(st, Sanitize(rawId), firstRead, later)[i].logAtRead
                                         && forall j :: 0 <= j < i ==> !LogRounds(st, Sanitize(rawId), firstRead, later)[j].doneSeen)
  {
    var id := Sanitize(rawId);
    var path := JavaFile.Normalize(LogFile(id));
    if path in st.fs.dirs {
      r := ExceptionReply(IsADirectory(path), Some("attachment; filename=log.txt"));
    } else if path in st.fs.files {
      var rounds := LogRounds(st, id, firstRead, later);
      var emitted, finished, used := Follow(rounds);
      if Grows(rounds) {
        assert IsPrefix(rounds[0].logAtCheck, rounds[0].logAtRead);
        PrefixChain(rounds, used - 1);
      }
      r := Reply(200, TEXT, Some("attachment; filename=log.txt"), StreamBody(emitted, finished));
    } else {
      r := NotFoundReply("Logfile not found");
    }
  }

  /** In a growing trace the first check's content is a prefix of every read. */
  lemma {:induction false} PrefixChain(rounds: seq<Round>, i: nat)
    requires Grows(rounds) && i < |rounds|
    ensures IsPrefix(rounds[0].logAtCheck, rounds[i].logAtRead)
  {
    if i > 0 {
      PrefixChain(rounds, i - 1);
      assert IsPrefix(rounds[i - 1].logAtRead, rounds[i].logAtCheck);
      assert IsPrefix(rounds[i].logAtCheck, rounds[i].logAtRead);
    } else {
      assert IsPrefix(rounds[0].logAtCheck, rounds[0].logAtRead);
    }
  }

  /** `p` names an entry directly inside directory `dir`. */
  predicate IsChild(dir: Path, p: Path) {
    |p| > |dir| + 1 && p[..|dir| + 1] == dir + "/" && JavaFile.SEPARATOR !in p[|dir| + 1..]
  }

  /** The names of the directory's listing: every entry directly inside `dir`. */
  function Listing(fs: FileSystem, dir: Path): (names: set<string>)
    ensures forall n :: n in names <==>
      |n| > 0 && JavaFile.SEPARATOR !in n && (dir + "/" + n in fs.dirs || dir + "/" + n in fs.files)
  {
    var names := set p | p in fs.dirs + fs.files.Keys && IsChild(dir, p) :: p[|dir| + 1..];
    assert forall n :: |n| > 0 && JavaFile.SEPARATOR !in n && (dir + "/" + n in fs.dirs || dir + "/" + n in fs.files) ==> n in names by {
      forall n | |n| > 0 && JavaFile.SEPARATOR !in n && (dir + "/" + n in fs.dirs || dir + "/" + n in fs.files)
        ensures n in names
      {
        var p := dir + "/" + n;
        assert p[..|dir| + 1] == dir + "/";
        assert p[|dir| + 1..] == n;
        assert IsChild(dir, p);
      }
    }
    assert forall n :: n in names ==> |n| > 0 && JavaFile.SEPARATOR !in n && (dir + "/" + n in fs.dirs || dir + "/" + n in fs.files) by {
      forall n | n in names
        ensures |n| > 0 && JavaFile.SEPARATOR !in n && (dir + "/" + n in fs.dirs || dir + "/" + n in fs.files)
      {
        var p :| p in fs.dirs + fs.files.Keys && IsChild(dir, p) && n == p[|dir| + 1..];
        assert p == p[..|dir| + 1] + p[|dir| + 1..];
      }
    }
    names
  }

  /** `handleResults`: the live listing of the job's working directory, or
      404 with code 1 when there is no such directory. */
  function HandleResults(st: State, rawId: string): (r: Reply)
    ensures r.status == 200 <==> IsDirectory(st.fs, STORAGE_DIR_PATH + Sanitize(rawId))
    ensures r.status == 200 ==> r.body.ResultsBody?
    ensures r.status == 200 ==> forall n :: n in r.body.availableFiles <==>
      |n| > 0 && JavaFile.SEPARATOR !in n &&
      (var dir := JavaFile.Normalize(STORAGE_DIR_PATH + Sanitize(rawId));
       dir + "/" + n in st.fs.dirs || dir + "/" + n in st.fs.files)
    ensures r.status != 200 ==> r == NotFoundReply("Request ID not found")
  {
    var dir := JavaFile.Normalize(STORAGE_DIR_PATH + Sanitize(rawId));
    if dir in st.fs.dirs then Reply(200, JSON, None, ResultsBody(Listing(st.fs, dir)))
    else NotFoundReply("Request ID not found")
  }

  /** The file `handleResult` looks up: the job's directory plus the base name
      of the requested file. */
  function ResultFile(rawId: string, file: string): Path {
    STORAGE_DIR_PATH + Sanitize(rawId) + "/" + JavaFile.Name(file)
  }

  /** `handleResult`. `sniffed` is the MIME type the detector reports. */
  function HandleResult(st: State, rawId: string, file: string, sniffed: string): (r: Reply)
    ensures r.status == 200 <==> JavaFile.Normalize(ResultFile(rawId, file)) in st.fs.files - st.fs.dirs
    ensures r.status == 200 ==>
      && r.body == StreamBody(st.fs.files[JavaFile.Normalize(ResultFile(rawId, file))], true)
      && r.disposition == Some("attachment; filename=" + JavaFile.Name(file))
    ensures r.status == 404 <==> !Exists(st.fs, ResultFile(rawId, file))
    ensures r.status == 404 ==> r == NotFoundReply("Result file not found")
    ensures r.status == 200 || r.status == 404 || r.status == 500
    ensures r.status == 500 ==> r.body.ErrorBody? && r.body.code == -1
  {
    var name := JavaFile.Name(file);
    var path := JavaFile.Normalize(STORAGE_DIR_PATH + Sanitize(rawId) + "/" + name);
    var disposition := Some("attachment; filename=" + name);
    if path in st.fs.dirs then ExceptionReply(IsADirectory(path), disposition)
    else if path in st.fs.files then Reply(200, sniffed, disposition, StreamBody(st.fs.files[path], true))
    else NotFoundReply("Result file not found")
  }

  /** The file `handleResult` serves always has the job's directory as its
      parent path, and its final component is the requested path's last
      component: no separator, and preceded in the normalised request by a
      separator or by nothing. */
  lemma ResultFileConfined(rawId: string, file: string)
    ensures exists name ::
      (&& JavaFile.SEPARATOR !in name
       && ResultFile(rawId, file) == STORAGE_DIR_PATH + Sanitize(rawId) + "/" + name
       && var n := JavaFile.Normalize(file);
          && |name| <= |n| && n[|n| - |name|..] == name
          && (|name| == |n| || n[|n| - |name| - 1] == JavaFile.SEPARATOR))
  {
    var name := JavaFile.Name(file);
    assert ResultFile(rawId, file) == STORAGE_DIR_PATH + Sanitize(rawId) + "/" + name;
  }
}

=== FILE: server_ids.dfy ===
/**
 * How the job server names things: the storage layout constants, the
 * sanitisation of path-supplied ids, and the derivation of a job id from the
 * name of the staged configuration file.
 */
module ServerIds {
  import opened Wrappers
  import JavaLang

  const STORAGE_DIR_PATH: string := "./.server-storage/"
  const LOG_DIR_PATH: string := STORAGE_DIR_PATH + "logs/"
  const CONFIG_FILE_PREFIX: string := "deer_cfg_"
  const CONFIG_FILE_SUFFIX: string := ".ttl"

  /** What the regular expression class `\d` matches (without the Unicode flag). */
  predicate IsDigit(c: char) {
    '0' <= c <= '9'
  }

  predicate AllDigits(s: string) {
    forall i :: 0 <= i < |s| ==> IsDigit(s[i])
  }

  /** `sanitizeId`: removes every character that is not a decimal digit and keeps
      the digits in their order. */
  function Sanitize(id: string): (r: string)
    ensures AllDigits(r)
    ensures |r| <= |id|
    decreases |id|
  {
    if |id| == 0 then ""
    else (if IsDigit(id[0]) then [id[0]] else "") + Sanitize(id[1..])
  }

  /** Sanitising a concatenation sanitises each part. */
  lemma {:induction false} SanitizeConcat(a: string, b: string)
    ensures Sanitize(a + b) == Sanitize(a) + Sanitize(b)
    decreases |a|
  {
    if |a| == 0 {
      assert a + b == b;
    } else {
      var head := if IsDigit(a[0]) then [a[0]] else "";
      assert (a + b)[0] == a[0] && (a + b)[1..] == a[1..] + b;
      assert Sanitize(a + b) == head + Sanitize(a[1..] + b);
      SanitizeConcat(a[1..], b);
      assert Sanitize(a) == head + Sanitize(a[1..]);
    }
  }

  /** A single digit survives and any other character is dropped; together with
      `SanitizeConcat` this fixes `Sanitize` on every input. */
  lemma SanitizeSingle(c: char)
    ensures IsDigit(c) ==> Sanitize([c]) == [c]
    ensures !IsDigit(c) ==> Sanitize([c]) == ""
  {
    assert [c][1..] == "";
  }

  /** An all-digit id is its own sanitisation. */
  lemma {:induction false} SanitizeKeepsDigits(s: string)
    requires AllDigits(s)
    ensures Sanitize(s) == s
    decreases |s|
  {
    if |s| > 0 {
      SanitizeKeepsDigits(s[1..]);
    }
  }

  /** Sanitisation is idempotent. */
  lemma SanitizeIdempotent(s: string)
    ensures Sanitize(Sanitize(s)) == Sanitize(s)
  {
    SanitizeKeepsDigits(Sanitize(s));
  }

  /** Characters other than digits do not matter: inserting them anywhere maps
      to the same registry key, which is how distinct raw ids collide. */
  lemma SanitizeIgnoresNonDigits(a: string, noise: string, b: string)
    requires forall i :: 0 <= i < |noise| ==> !IsDigit(noise[i])
    ensures Sanitize(a + noise + b) == Sanitize(a + b)
  {
    SanitizeNoDigits(noise);
    SanitizeConcat(a + noise, b);
    SanitizeConcat(a, noise);
    SanitizeConcat(a, b);
  }

  lemma {:induction false} SanitizeNoDigits(s: string)
    requires forall i :: 0 <= i < |s| ==> !IsDigit(s[i])
    ensures Sanitize(s) == ""
    decreases |s|
  {
    if |s| > 0 {
      SanitizeNoDigits(s[1..]);
    }
  }

  /** The id `handleSubmit` cuts out of the staged file's path: the text between
      the first `deer_cfg_` and the last `.ttl`. `substring` throws when the
      bounds are out of order, which ends the request with an exception. When
      the prefix is missing, `indexOf` gives -1, so the id starts at index 8,
      one less than the prefix's length. */
  function ExtractId(path: string): (r: Result<string, JavaLang.OutOfBounds>)
    ensures (forall k :: !JavaLang.OccursAt(path, CONFIG_FILE_SUFFIX, k)) ==> r.Failure?
    ensures r.Success? ==> exists e :: IdEndsAt(path, r.value, e)
  {
    CutIsId(path);
    JavaLang.Substring(path, JavaLang.IndexOf(path, CONFIG_FILE_PREFIX) + |CONFIG_FILE_PREFIX|,
                       JavaLang.LastIndexOf(path, CONFIG_FILE_SUFFIX))
  }

  /** Whatever the two searches cut out of `path` is an id that fits. */
  lemma CutIsId(path: string)
    ensures var begin := JavaLang.IndexOf(path, CONFIG_FILE_PREFIX) + |CONFIG_FILE_PREFIX|;
      var end := JavaLang.LastIndexOf(path, CONFIG_FILE_SUFFIX);
      0 <= begin <= end <= |path| ==> IdEndsAt(path, path[begin..end], end)
  {
  }

  /** Conversely, whenever an id fits between the first `deer_cfg_` (or index
      8) and the last `.ttl`, the bounds are in order and extraction yields it:
      with the contract above, extraction succeeds exactly when an id fits. */
  lemma ExtractIdSucceedsWhenIdFits(path: string, id: string, e: int)
    requires IdEndsAt(path, id, e)
    ensures ExtractId(path) == Success(id)
  {
    IdBounds(path, id, e);
    var r := ExtractId(path);
    assert r.Success? && |r.value| == |id|;
    assert forall i :: 0 <= i < |id| ==> r.value[i] == id[i];
  }

  /** Where an id fits, `indexOf` and `lastIndexOf` find exactly its bounds. */
  lemma IdBounds(path: string, id: string, e: int)
    requires IdEndsAt(path, id, e)
    ensures JavaLang.LastIndexOf(path, CONFIG_FILE_SUFFIX) == e
    ensures JavaLang.IndexOf(path, CONFIG_FILE_PREFIX) + |CONFIG_FILE_PREFIX| == e - |id|
  {
    var b := e - |id|;
    if JavaLang.OccursAt(path, CONFIG_FILE_PREFIX, b - |CONFIG_FILE_PREFIX|)
       && forall k :: k < b - |CONFIG_FILE_PREFIX| ==> !JavaLang.OccursAt(path, CONFIG_FILE_PREFIX, k)
    {
      assert JavaLang.IndexOf(path, CONFIG_FILE_PREFIX) == b - |CONFIG_FILE_PREFIX|;
    } else {
      assert JavaLang.IndexOf(path, CONFIG_FILE_PREFIX) == -1;
    }
  }

  /** `id` is the text of `path` that ends where the last `.ttl` starts (at
      `e`) and begins right after the first `deer_cfg_`, or at index 8 when
      `path` holds no `deer_cfg_`. */
  ghost predicate IdEndsAt(path: string, id: string, e: int) {
    var b := e - |id|;
    && JavaLang.OccursAt(path, CONFIG_FILE_SUFFIX, e)
    && (forall k :: e < k ==> !JavaLang.OccursAt(path, CONFIG_FILE_SUFFIX, k))
    && 0 <= b && path[b..e] == id
    && ((&& JavaLang.OccursAt(path, CONFIG_FILE_PREFIX, b - |CONFIG_FILE_PREFIX|)
         && forall k :: k < b - |CONFIG_FILE_PREFIX| ==> !JavaLang.OccursAt(path, CONFIG_FILE_PREFIX, k))
        || ((forall k :: !JavaLang.OccursAt(path, CONFIG_FILE_PREFIX, k)) && b == |CONFIG_FILE_PREFIX| - 1))
  }

  /** `deer_cfg_` has no proper suffix that is also a prefix of it, so an
      occurrence cannot start inside `dir` and run on into the prefix itself. */
  lemma NoStraddlingPrefix(dir: string, rest: string, k: int)
    requires 0 <= k < |dir| < k + |CONFIG_FILE_PREFIX|
    ensures !JavaLang.OccursAt(dir + CONFIG_FILE_PREFIX + rest, CONFIG_FILE_PREFIX, k)
  {
    var s := dir + CONFIG_FILE_PREFIX + rest;
    var d := |dir| - k;
    var j := if d == 4 then 5 else 8;
    assert s[k + j] == CONFIG_FILE_PREFIX[j - d];
    assert CONFIG_FILE_PREFIX[j - d] != CONFIG_FILE_PREFIX[j];
    assert s[k..k + |CONFIG_FILE_PREFIX|][j] != CONFIG_FILE_PREFIX[j];
  }

  /** The id round trip: a file staged as `dir + "deer_cfg_" + x + ".ttl"`, with
      no `deer_cfg_` inside `dir`, yields exactly `x`, whatever `x` contains. */
  lemma ExtractIdRoundTrip(dir: string, x: string)
    requires forall k :: !JavaLang.OccursAt(dir, CONFIG_FILE_PREFIX, k)
    ensures ExtractId(dir + CONFIG_FILE_PREFIX + x + CONFIG_FILE_SUFFIX) == Success(x)
  {
    var s := dir + CONFIG_FILE_PREFIX + x + CONFIG_FILE_SUFFIX;
    var rest := x + CONFIG_FILE_SUFFIX;
    assert s == dir + CONFIG_FILE_PREFIX + rest;
    assert JavaLang.OccursAt(s, CONFIG_FILE_PREFIX, |dir|) by {
      assert s[|dir|..|dir| + |CONFIG_FILE_PREFIX|] == CONFIG_FILE_PREFIX;
    }
    forall k | 0 <= k < |dir|
      ensures !JavaLang.OccursAt(s, CONFIG_FILE_PREFIX, k)
    {
      if k + |CONFIG_FILE_PREFIX| <= |dir| {
        assert s[k..k + |CONFIG_FILE_PREFIX|] == dir[k..k + |CONFIG_FILE_PREFIX|];
        assert !JavaLang.OccursAt(dir, CONFIG_FILE_PREFIX, k);
      } else {
        NoStraddlingPrefix(dir, rest, k);
      }
    }
    assert JavaLang.IndexOf(s, CONFIG_FILE_PREFIX) == |dir|;
    var e := |s| - |CONFIG_FILE_SUFFIX|;
    assert JavaLang.OccursAt(s, CONFIG_FILE_SUFFIX, e) by {
      assert s[e..e + |CONFIG_FILE_SUFFIX|] == CONFIG_FILE_SUFFIX;
    }
    assert JavaLang.LastIndexOf(s, CONFIG_FILE_SUFFIX) == e;
    assert s[|dir| + |CONFIG_FILE_PREFIX|..e] == x;
  }

  /** When the staged path has no `.ttl` at all, `lastIndexOf` gives -1 and the
      `substring` call throws. */
  lemma ExtractIdFailsWithoutSuffix(path: string)
    requires forall k :: !JavaLang.OccursAt(path, CONFIG_FILE_SUFFIX, k)
    ensures ExtractId(path).Failure?
    ensures ExtractId(path).error.end == -1
  {
  }
}

=== FILE: tail_follow.dfy ===
/**
 * The tail-follow loop of `handleLogs`: drain the log file to end-of-file,
 * stop if the job was seen done before that drain, otherwise sleep and look
 * at the job again. The file system and the registry are observed through a
 * trace of rounds; each round is one done-check followed by one drain.
 */
module TailFollow {

  newtype byte = x: int | 0 <= x < 256
  type Bytes = seq<byte>

  /** Size of the read buffer `handleLogs` allocates. */
  const BUFFER_SIZE: nat := 1024

  /** One pass of the loop body, as the environment presents it:
      `doneSeen` is the value `finish` gets before the drain (the initial
      check, or the check after a sleep), `logAtCheck` is the log's content
      at that check, and `logAtRead` its content when the drain hit end-of-file. */
  datatype Round = Round(doneSeen: bool, logAtCheck: Bytes, logAtRead: Bytes)

  predicate IsPrefix(a: Bytes, b: Bytes) {
    |a| <= |b| && b[..|a|] == a
  }

  /** An append-only log: each observation extends the previous one. */
  ghost predicate Grows(rounds: seq<Round>) {
    && (forall i :: 0 <= i < |rounds| ==> IsPrefix(rounds[i].logAtCheck, rounds[i].logAtRead))
    && (forall i :: 0 < i < |rounds| ==> IsPrefix(rounds[i - 1].logAtRead, rounds[i].logAtCheck))
  }

  /** The inner read loop, which runs until the read reports end-of-file: copies the file
      from the stream position to end-of-file in chunks of at most
      `BUFFER_SIZE` bytes. A position past the end reads nothing. */
  method Drain(content: Bytes, pos: nat) returns (out: Bytes, pos': nat)
    ensures pos <= |content| ==> out == content[pos..] && pos' == |content|
    ensures pos > |content| ==> out == [] && pos' == pos
  {
    out := [];
    pos' := pos;
    while pos' < |content|
      invariant pos <= |content| ==> pos <= pos' <= |content| && out == content[pos..pos']
      invariant pos > |content| ==> out == [] && pos' == pos
      decreases |content| - pos'
    {
      var count := if |content| - pos' < BUFFER_SIZE then |content| - pos' else BUFFER_SIZE;
      out := out + content[pos'..pos' + count];
      pos' := pos' + count;
    }
  }

  /** The outer loop, which only a done-check ends. `finished` is false only when the trace
      ran out before the job was seen done (the real loop would go on). */
  method Follow(rounds: seq<Round>) returns (emitted: Bytes, finished: bool, used: nat)
    ensures used <= |rounds|
    ensures finished ==> 0 < used && rounds[used - 1].doneSeen
    ensures forall j :: 0 <= j < used - 1 ==> !rounds[j].doneSeen
    ensures !finished ==> used == |rounds| && forall j :: 0 <= j < |rounds| ==> !rounds[j].doneSeen
    ensures Grows(rounds) && 0 < used ==> emitted == rounds[used - 1].logAtRead
    ensures Grows(rounds) && finished ==> IsPrefix(rounds[used - 1].logAtCheck, emitted)
    ensures used == 0 ==> emitted == []
    ensures 0 < |rounds| ==> 0 < used
    ensures 0 < |rounds| && rounds[0].doneSeen ==> finished && used == 1 && emitted == rounds[0].logAtRead
  {
    emitted := [];
    finished := false;
    used := 0;
    var pos: nat := 0;
    while used < |rounds| && !finished
      invariant used <= |rounds|
      invariant pos == |emitted|
      invariant finished ==> 0 < used && rounds[used - 1].doneSeen
      invariant forall j :: 0 <= j < used - 1 ==> !rounds[j].doneSeen
      invariant !finished ==> forall j :: 0 <= j < used ==> !rounds[j].doneSeen
      invariant Grows(rounds) && 0 < used ==> emitted == rounds[used - 1].logAtRead
      invariant used == 0 ==> emitted == [] && !finished
      invariant 0 < used && rounds[0].doneSeen ==> finished && used == 1 && emitted == rounds[0].logAtRead
      decreases |rounds| - used
    {
      var round := rounds[used];
      ghost var before := emitted;
      var chunk;
      chunk, pos := Drain(round.logAtRead, pos);
      emitted := emitted + chunk;
      if Grows(rounds) {
        GrowthStep(rounds, used, before);
        assert emitted == before + round.logAtRead[|before|..];
      }
      used := used + 1;
      finished := round.doneSeen;
    }
  }

  /** What was emitted before round `i` is a prefix of what round `i` reads. */
  lemma GrowthStep(rounds: seq<Round>, i: nat, before: Bytes)
    requires Grows(rounds) && i < |rounds|
    requires i == 0 ==> before == []
    requires 0 < i ==> before == rounds[i - 1].logAtRead
    ensures IsPrefix(before, rounds[i].logAtRead)
    ensures before + rounds[i].logAtRead[|before|..] == rounds[i].logAtRead
  {
    if 0 < i {
      assert IsPrefix(rounds[i - 1].logAtRead, rounds[i].logAtCheck);
      assert IsPrefix(rounds[i].logAtCheck, rounds[i].logAtRead);
    }
    var r := rounds[i].logAtRead;
    assert r == r[..|before|] + r[|before|..];
  }
}

=== FILE: wrappers.dfy ===
/** Option and Result, used for Java's null and for thrown exceptions. */
module Wrappers {

  /** `None` stands for Java's `null`. */
  datatype Option<+T> = None | Some(value: T) {

    /** The value, or `default` when this is `None`. */
    function GetOr(default: T): T {
      match this
      case Some(v) => v
      case None => default
    }
  }

  /** `Failure` stands for an exception that ends the computation. */
  datatype Result<+R, +E> = Success(value: R) | Failure(error: E)
}
